=== FILE: README.md ===
# Evolution simulation core in Dafny

A model of the core of a small 2-D evolution simulation. Agents wander a
1280 x 720 field. They drink at a pond made of overlapping circles and eat
food items from bushes. They bounce off both, and they die of hunger,
thirst or exhaustion. The model covers:

- the agent record and its life cycle (`agent.py`): creation, the per-call
  internal update, and the alive, dying and dead state machine;
- one frame of one agent (`simulation.py`, `update_agent`): the speed cap,
  the cooldown, the eat pause, the drink state with its sip loop, the
  proposed move, starting to drink, eating from or bouncing off a bush,
  bouncing off the pond, and the screen margins;
- the resource queries (`resources.py`): the deepest collision, the
  nearest contact, the bounce, taking one food item, the regeneration
  timer, the initial fill, and the pond's centre and largest radius;
- the trait multipliers (`traits.py`) and the numeric helpers (`utils.py`);
- the pure parts of the hover and follow interaction (`interaction.py`).

Every number is an exact real, or an integer where the source uses `int`.
`math.hypot` and `** 0.5` are a square-root function passed in as a
parameter. Lemmas that depend on what it computes require
`Geometry.IsSqrt`. Every random draw (`randint`, `choice`, `uniform`,
`randrange`) is a parameter, reduced into the range the library would
return. The food-item generator is an oracle parameter. Configuration keys
that `config.py` does not define are fields of `Config.Params`: the
`THIRST_OK/SEEK/CRIT` and `HUNGER_SEEK/CRIT` thresholds, the `RESOURCES`
amounts and intervals, and the two chatbox colours. `WIDTH`, `HEIGHT` and
`AGENT_RADIUS` are the constants `config.py` defines.

Python mutates objects in place. The model returns the new value instead:
a new agent, a new bush, or a `Tick` that pairs `update_agent`'s boolean
result with the updated agent and bushes. The agent record also carries
the fields the tick reads but the dataclass lacks: `id`, `action`,
`interact_cooldown`, `eat_pause` and `drink_timer`.

Where the code and its description differ, the model follows the code:

- The living update adds fixed amounts of hunger, thirst and energy drain
  per call, whatever `dt` is. It never drains health and sets no age limit.
- Running out of energy kills at once, without a dying phase. The other
  limits start a 1.5-second dying phase that only ends in death.
- `_apply_bounce` bounces from the agent's current position, using the
  distance and overlap measured at the proposed position. The normal is
  then not a unit vector, and a bounce can speed an agent up despite the
  damping. `Simulation.ApplyBounceCanGainSpeed` gives a concrete case.
  When the distance is the true distance of the bounced point,
  `Resources.BounceSeparates` shows the bounce keeps the speed and leaves
  the agent exactly one unit clear of the rim.

## Model

| member | source | states |
|---|---|---|
| `Utils.Clamp01` | utils.py:7-11 | the result lies in [0, 1], equals `t` inside it, and is the crossed end outside it |
| `Utils.Lerp` | utils.py:14-18 | `t = 0` gives `a` and `t = 1` gives `b`; for `t` in [0, 1] the result lies between `a` and `b` |
| `Utils.LerpColour` | utils.py:21-30 | `t` is clamped first, so `t <= 0` gives `c1` and `t >= 1` gives `c2`; each truncated channel stays between the two inputs' channels |
| `Utils.Severity` | utils.py:33-40 | the factor lies in [0, 1]; it is 0 at or below `start`, 1 from `start + span` on, and strictly between in the ramp |
| `Utils.SeverityMonotone` | utils.py:33-40 | with a positive span, a larger value never gets a smaller severity |
| `Utils.StepTowardZero` | utils.py:42-47 | the result keeps the sign of `v`, never crosses 0, and its magnitude is `abs(v) - step` floored at 0 |
| `Utils.Clamp` | resources.py:11-12 | the result is the nearest point of [lo, hi] to `v`; on an empty interval the lower bound wins |
| `Draws.RandInt` | agent.py:26-27 | a `randint` draw lies in [lo, hi] |
| `Draws.RandIntCovers` | agent.py:26-27 | every value of [lo, hi] is drawn by some draw |
| `Draws.Choice` | agent.py:28-29 | a `choice` draw is an element of the non-empty sequence |
| `Traits.RandomTraits` | traits.py:20-33 | first-generation multipliers lie in [0.7, 1.4] for vision and speed, [0.7, 1.3] for metabolism and [0.7, 1.5] for memory |
| `Draws.Uniform` | traits.py:29-32 | a `uniform(a, b)` draw with `a <= b` lies in [a, b] |
| `Traits.ClampTraits` | traits.py:36-43 | every multiplier ends in [0.5, 2.0]; each one is clamped on its own: unchanged inside the range, 0.5 below it and 2.0 above it |
| `Traits.RandomTraitsAreClamped` | traits.py:20-43 | clamping freshly drawn traits changes nothing |
| `Traits.EffectiveVision` | traits.py:50-52 | the unit multiplier keeps the base vision; a clamped multiplier keeps it between half and twice the base |
| `Traits.EffectiveMaxSpeed` | traits.py:55-57 | the unit multiplier keeps the base speed; a clamped multiplier keeps it between half and twice the base |
| `Traits.EffectiveDrain` | traits.py:60-65 | the unit multiplier keeps the base drain; a clamped multiplier keeps it between half and twice the base |
| `Traits.EffectiveMemoryTtl` | traits.py:68-73 | the unit multiplier keeps the base lifetime; a clamped multiplier keeps it between half and twice the base |
| `Traits.EffectiveWithDefaults` | traits.py:11-18 | with the default multipliers every effective value equals its base value |
| `Traits.EffectiveMemoryTtlMonotone` | traits.py:68-73 | a higher memory multiplier never gives a shorter memory |
| `Traits.EffectiveDrainMonotone` | traits.py:60-65 | a higher metabolism multiplier never gives a slower drain |
| `Agents.CreateAgent` | agent.py:5-30 | a new agent is alive, not dying, with zero needs, full energy and health, and an integer position inside the margins; each velocity component is one of -2, -1, 1, 2 |
| `Agents.CreateAgentCovers` | agent.py:24-30 | every admissible position and starting velocity is produced by some draw |
| `Agents.StartDying` | agent.py:63-67 | a living agent that is not yet dying starts dying with progress 0; any other agent is left alone |
| `Agents.StartDyingIdempotent` | agent.py:63-67 | starting to die twice is starting once |
| `Agents.UpdateInternalState` | agent.py:33-61 | a dead agent is unchanged; dying advances the progress by `dt / 1.5` and kills, with the velocity zeroed, at 1; a living call adds age 1, hunger 0.07 and thirst 0.05 and drains energy 0.02; exhaustion kills without a dying phase; the dying phase starts exactly when health, hunger or thirst reaches its limit; when no dying phase starts the progress is kept; the life-cycle invariant is kept |
| `Agents.LivingStepIgnoresDt` | agent.py:50-54 | the living update does not depend on the frame time |
| `Agents.DeadIsTerminal` | agent.py:34-35 | no sequence of updates changes a dead agent |
| `Agents.RunKeepsInv` | agent.py:33-67 | over any run with non-negative frame times, a dying agent stays alive with progress below 1, progress stays in [0, 1], and energy stays non-negative |
| `Agents.DyingEndsInDeath` | agent.py:38-48 | a dying agent never recovers, and it is dead once the frame times add up to the dying time left |
| `Resources.ClosestCollisionCircle` | resources.py:327-338 | the answer is None exactly when no circle overlaps; otherwise it is the hit of the first circle with the greatest positive overlap |
| `Resources.CollideWithPond` | resources.py:341-342 | None exactly when no pond circle overlaps the agent; otherwise the hit of the first pond circle with the greatest overlap |
| `Resources.CollideWithBush` | resources.py:345-346 | None exactly when no blob of the bush overlaps the agent; otherwise the hit of the first blob with the greatest overlap |
| `Resources.TouchCircle` | resources.py:376-392 | the answer is None exactly when no circle is within `agent_r + cr + eps`; otherwise it is the first nearest such circle |
| `Resources.TouchPond` | resources.py:395-396 | None exactly when no pond circle is within contact distance; otherwise the first nearest such circle |
| `Resources.TouchBush` | resources.py:399-400 | None exactly when no blob of the bush is within contact distance; otherwise the first nearest such blob |
| `Resources.CollisionImpliesContact` | resources.py:327-392 | for a non-negative epsilon, a circle that collides is also touched |
| `Resources.BounceOffCircle` | resources.py:349-365 | the position moves `overlap + 1` along the normal (+x at distance 0); the new velocity is `v - 2 (v . n) n` for whatever normal the distance gives: the tangential part is kept and the normal part becomes `(v . n)(1 - 2 abs(n)^2)`, which is its negation for a unit normal; for the zero normal the velocity is kept |
| `Resources.ReflectedUnique` | resources.py:361-363 | for any non-zero normal, and for the zero normal, the reflection is determined: two vectors that both reflect `v` about `n` are equal |
| `Resources.BounceSeparates` | resources.py:349-365 | for a true distance, the bounce keeps the speed and moves the point to distance `dist + overlap + 1` from the centre |
| `Resources.PickFoodFromBush` | resources.py:368-373 | the pick succeeds exactly when the bush has food; then the chosen item is removed, the others keep their order, and nothing else changes; otherwise the bush is unchanged |
| `Resources.SingleItemFeedsOnce` | resources.py:368-373 | a bush holding one item feeds exactly one of two consecutive picks |
| `Resources.UpdateRegen` | resources.py:96-107 | a full bush only resets its timer; otherwise the timer accumulates until it reaches the regeneration period, then resets and appends at most one item; the stock never exceeds capacity and the timer stays in [0, period) |
| `Resources.UpdateResources` | resources.py:263-265 | every bush keeps its place and its other fields; its old stock is a prefix of the new one, which grows by at most one item and never past capacity; a full bush only resets its timer; a bush below capacity whose timer plus `dt` stays under the period only accumulates the timer; one that reaches the period resets the timer and appends the generator's item, if any; timers stay in [0, period) |
| `Resources.UpdateResourcesKeepsFieldOk` | resources.py:96-107 | a field whose bushes are all within capacity and whose timers are all in [0, period) stays so after a regeneration step, whatever the generator answers |
| `Resources.SpawnInitialFood` | resources.py:39-45 | the new stock is exactly the old one with every item the generator returned appended, call by call; every call was made while the bush was short of capacity; at most 200 calls, ending full or after 200 calls; the stock never exceeds capacity; a generator that always answers fills a bush within 200 of capacity exactly to capacity |
| `Resources.ReplayAlwaysSome` | resources.py:41-45 | a generator that always answers adds exactly one item per call |
| `Resources.PondBounds` | resources.py:144-151 | None exactly for a pond without circles; otherwise the centre is the mean of the circle centres and lies within their box, and `r_max` is a radius every circle is within and some circle has |
| `Resources.MeanBetween` | resources.py:148-149 | a mean lies between the least and the greatest element |
| `Simulation.ClampSpeed` | simulation.py:171-182 | a velocity within 3.5 is unchanged; a faster one is scaled by a factor in (0, 1], so its direction is kept, down to speed exactly 3.5 |
| `Simulation.ClampSpeedIdempotent` | simulation.py:171-182 | capping twice is capping once |
| `Simulation.Settle` | simulation.py:22-28 | only the velocity and cooldown change; the velocity is the capped one; a running cooldown counts down by `dt` floored at 0, an expired one is left alone |
| `Simulation.Nudge` | simulation.py:165-168 | each velocity component moves by exactly 0.6, up or down |
| `Simulation.NudgeCovers` | simulation.py:165-168 | all four nudge directions occur |
| `Simulation.Nudged` | simulation.py:165-168 | only the velocity changes: it is the nudged velocity scaled by a factor in (0, 1], and its speed is that of the nudged velocity capped at 3.5 |
| `Simulation.SipLoop` | simulation.py:53-56 | the loop leaves a timer below the interval, and not below 0 when it started at or above 0; thirst never rises and never goes below 0 |
| `Simulation.SipTimerClosedForm` | simulation.py:53-56 | after `n` rounds the timer has lost exactly `n` intervals |
| `Simulation.SipThirstBySips` | simulation.py:53-56 | the thirst left is that of as many floored sips as the loop made rounds |
| `Simulation.SipsClosedForm` | simulation.py:56 | `n > 0` sips take `n` amounts off the thirst, floored at 0 |
| `Simulation.SipCountIsFloor` | simulation.py:54 | the loop runs the integer part of `timer / interval` rounds |
| `Simulation.BoundAxis` | simulation.py:128-140 | a coordinate below the margin is set to it, one above the far margin is set to that, and one inside is unchanged; the velocity component is negated exactly when the coordinate was outside |
| `Simulation.BoundAxisIdempotent` | simulation.py:128-140 | a clamped coordinate is not clamped again |
| `Simulation.ProposedMove` | simulation.py:64-68 | the proposed displacement is the velocity scaled by the multiplier times 60 `dt`; with no time or a zero multiplier the agent proposes to stay |
| `Simulation.ProposedMoveDistance` | simulation.py:64-68 | the proposed move covers the agent's speed times the multiplier times 60 `dt` |
| `Simulation.MeetBush` | simulation.py:88-115 | an agent passes a bush exactly when it is out of contact, or it cannot eat there and does not collide; eating happens only in contact, ready, hungry and with food, and removes the picked item; a bounce happens only in contact without eating, with the bush's collision hit |
| `Simulation.BushScan` | simulation.py:88-115 | the loop passes every bush, or stops at the first bush not passed |
| `Simulation.Eat` | simulation.py:97-103 | the position and action are kept; hunger drops by the eat amount floored at 0; the bite pause and cooldown start; the velocity is the nudged one, capped, so it ends at most 3.5 fast |
| `Simulation.DrinkTick` | simulation.py:40-59 | a drinking agent never moves; it is released with a fresh cooldown, a reset timer and the nudged, capped velocity exactly when the pond is out of reach or its thirst is at most the "ok" threshold; otherwise it takes the sip step, with velocity, action and cooldown kept |
| `Simulation.SipStep` | simulation.py:53-56 | only the timer and thirst change; with `n` the integer part of `(timer + dt) / interval`, thirst is that of `n` sips floored at 0 and the timer loses `n` intervals, ending in [0, interval) from a non-negative start |
| `Simulation.MoveWithin` | simulation.py:128-147 | the committed position lies inside the margins, equals the proposed one on an axis where that is inside, and is the crossed margin on an axis where it is outside; the velocity is the bounded one, capped |
| `Simulation.ApplyBounce` | simulation.py:154-162 | only the position and velocity change; the position moves `overlap + 1` along the normal taken from the current position; the velocity is the reflection of the old one about that normal, whether or not it is a unit vector, damped by exactly 0.92 and then capped by `ClampSpeed` (so scaled by a factor in (0, 0.92] overall) and at most 3.5 fast; for the zero normal (current position at the centre, non-zero distance) the old velocity is only damped and capped |
| `Simulation.Interact` | simulation.py:88-147 | eating at the first bush that stops the agent applies the bite and replaces that bush with its eaten copy; hitting it bounces off the hit, with the bushes unchanged; past every bush, a pond hit bounces off the pond; with nothing in the way the agent moves within the margins; bushes change only by one item eaten, with the agent staying put; the speed ends capped |
| `Simulation.WanderTick` | simulation.py:60-147 | a ready, thirsty wanderer whose proposed position touches the pond starts drinking where it stands with the timer reset and no bush touched; otherwise the tick is the interaction at the proposed position |
| `Simulation.UpdateAgent` | simulation.py:13-147 | the result says whether the agent is still alive; a dead agent and the bushes are left as the internal update left them; at most one bush loses one item; a living agent ends at most 3.5 fast |
| `Simulation.DeadAgentIsInert` | simulation.py:18-20 | a dead agent is reported dead and nothing changes |
| `Simulation.EatPauseFreezes` | simulation.py:33-35 | during the bite pause the agent keeps its position and action, touches no bush, and the pause counts down |
| `Simulation.DrinkingStaysPut` | simulation.py:40-59 | a drinking agent stays put; it returns to wandering exactly when the pond is out of reach or thirst is low enough; while sipping the timer stays below the interval and thirst does not rise |
| `Simulation.StartsDrinkingAtPond` | simulation.py:73-80 | a wanderer starts drinking exactly when it is ready, thirsty enough and its proposed position touches the pond; it then stays put with the timer reset |
| `Simulation.EatsOnlyWhenHungry` | simulation.py:88-103 | a bush loses food only to a living, wandering, unpaused agent that is off cooldown and hungry enough; it stays put, its hunger drops by the eat amount floored at 0, and the pause and cooldown start |
| `Simulation.FreeMoveStaysOnScreen` | simulation.py:120-147 | with nothing in the way the tick is the screen-bounds step at the proposed position: the agent ends inside the screen margins, at the proposed position when that is inside |
| `Simulation.UpdateAgentKeepsInv` | simulation.py:13-147 | a frame with a non-negative time keeps the life-cycle invariant, non-negative needs and timers, and a drink timer below the interval |
| `Simulation.ApplyBounceCanGainSpeed` | simulation.py:154-162 | an agent at (100, 100) moving at (2, 0) that proposes (102, 100) against a radius-5 circle centred at (114, 100) leaves the bounce at speed 713/225, faster than before |
| `Interaction.AgentAtMouse` | interaction.py:37-51 | the answer is None exactly when no agent is within 23 of the mouse; otherwise it is the first agent in list order that is |
| `Interaction.HoversIsDisc` | interaction.py:44-49 | hovering is the closed disc of radius `AGENT_RADIUS + 15` around the agent |
| `Interaction.ToggleFollow` | interaction.py:54-62 | toggling the followed agent unfollows it; toggling any other agent follows that agent |
| `Interaction.ToggleTwice` | interaction.py:54-62 | toggling the same agent twice restores following it, and otherwise leaves nobody followed |
| `Interaction.FollowedAgent` | interaction.py:65-74 | nobody followed gives None; otherwise the answer is None exactly when no agent has the followed id, else the first agent of the list with that id |
| `Interaction.StateColour` | interaction.py:77-88 | the critical colour is shown exactly when thirst or hunger is at or past its critical threshold |
| `Interaction.StateColourMonotone` | interaction.py:77-88 | an agent that is no less thirsty and no less hungry is never shown in a calmer colour |
| `Interaction.StateIcon` | interaction.py:91-110 | no icon exactly when neither need is past its seek threshold; a shown need is past it; when both are, the higher level wins and thirst wins ties |
| `Interaction.StateIconIsMostUrgent` | interaction.py:91-110 | the shown need's level is at least that of every pressing need |
| `Interaction.CriticalShowsIcon` | interaction.py:77-110 | when each critical threshold is at or above its seek threshold, a critical agent always shows an icon |

## Left out

- Rendering and input: `draw_*`, `_load_icon`, the pygame loop in `main.py`, and the tooltip's string formatting. `Interaction.StateIcon` returns the need whose level the tooltip prints, not the text.
- Procedural generation of the pond and the bushes (`create_pond`, `create_bushes`, `_rand_point`, `_new_food_item`) is random placement with retry loops. The food generator is an oracle parameter of `Resources.SpawnInitialFood` and `Resources.UpdateRegen`.
- `movement_multiplier` is not defined in `agent.py`. `Simulation.UpdateAgent` takes its value for the agent as the parameter `mult`.
- Floating point: values are exact reals, so the non-finite branches of `_clamp_speed` and `_safe_pos` cannot occur. `_safe_pos` is the identity, and the random reset it would make is not modelled.
- The followed agent's id, a module-level variable, is passed in and returned.
- `Resources.PondBounds`: Python raises on a pond without circles; the model returns None.
- `Simulation.SipLoop` requires a positive drink interval. With any other interval the source loops forever whenever the timer is non-negative.
- `Resources.MeanBetween`: the model states where the mean lies and does not restate it as the sum over the count.
- `Draws.RandInt`, `Draws.Choice`, `Utils.Severity`: Python raises on an empty range, an empty sequence or a zero span; the model requires these away.

=== FILE: agent.dfy ===
/** The agent record and its life cycle (agent.py): creation, the per-call
    internal update, and the alive -> dying -> dead state machine. */
module Agents {
  import opened Utils
  import opened Draws

  /** The action a simulated agent is carrying out. */
  datatype Action = Wander | Drink

  /** One agent. The fields `id`, `action`, `interactCooldown`, `eatPause`
      and `drinkTimer` are used by the per-tick update but absent from the
      dataclass; the model carries them with the defaults `Wander` and 0. */
  datatype Agent = Agent(
    id: int,
    x: real,
    y: real,
    vx: real,
    vy: real,
    age: int,
    hunger: real,
    thirst: real,
    energy: real,
    health: real,
    alive: bool,
    dying: bool,
    dyingProgress: real,
    action: Action,
    interactCooldown: real,
    eatPause: real,
    drinkTimer: real)

  const DYING_SECONDS: real := 1.5
  const HUNGER_PER_STEP: real := 0.07
  const THIRST_PER_STEP: real := 0.05
  const ENERGY_PER_STEP: real := 0.02
  /** The need level at which a living agent starts dying. */
  const NEED_LIMIT: real := 100.0

  const START_VELOCITIES: seq<int> := [-2, -1, 1, 2]

  /** The life-cycle facts every agent keeps: a dying agent is alive and
      not yet at the end of its phase, the dying progress stays in [0, 1],
      and energy never goes negative. */
  ghost predicate Inv(a: Agent)
  {
    && (a.dying ==> a.alive && a.dyingProgress < 1.0)
    && 0.0 <= a.dyingProgress <= 1.0
    && 0.0 <= a.energy
  }

  /** `create_agent`: a fresh agent at a random integer position inside the
      margins, with each velocity component drawn from {-2, -1, 1, 2}.
      `randint` raises on an empty range, hence the preconditions. */
  function CreateAgent(id: int, width: int, height: int, radius: int,
                       drawX: nat, drawY: nat, drawVx: nat, drawVy: nat): (a: Agent)
    requires radius <= width - radius
    requires radius <= height - radius
    ensures a.alive && !a.dying && a.dyingProgress == 0.0
    ensures a.age == 0 && a.hunger == 0.0 && a.thirst == 0.0
    ensures a.energy == 100.0 && a.health == 100.0
    ensures radius as real <= a.x <= (width - radius) as real
    ensures radius as real <= a.y <= (height - radius) as real
    ensures a.x.Floor as real == a.x && a.y.Floor as real == a.y
    ensures a.vx == -2.0 || a.vx == -1.0 || a.vx == 1.0 || a.vx == 2.0
    ensures a.vy == -2.0 || a.vy == -1.0 || a.vy == 1.0 || a.vy == 2.0
    ensures a.action == Wander && a.interactCooldown == 0.0 && a.eatPause == 0.0 && a.drinkTimer == 0.0
    ensures a.id == id
    ensures Inv(a)
  {
    Agent(
      id := id,
      x := RandInt(radius, width - radius, drawX) as real,
      y := RandInt(radius, height - radius, drawY) as real,
      vx := Choice(START_VELOCITIES, drawVx) as real,
      vy := Choice(START_VELOCITIES, drawVy) as real,
      age := 0,
      hunger := 0.0,
      thirst := 0.0,
      energy := 100.0,
      health := 100.0,
      alive := true,
      dying := false,
      dyingProgress := 0.0,
      action := Wander,
      interactCooldown := 0.0,
      eatPause := 0.0,
      drinkTimer := 0.0)
  }

  /** Every admissible position and starting velocity is produced by some
      draw. */
  lemma CreateAgentCovers(width: int, height: int, radius: int, x: int, y: int, i: nat, j: nat)
    requires radius <= x <= width - radius
    requires radius <= y <= height - radius
    requires i < |START_VELOCITIES| && j < |START_VELOCITIES|
    ensures var a := CreateAgent(0, width, height, radius, x - radius, y - radius, i, j);
      && a.x == x as real && a.y == y as real
      && a.vx == START_VELOCITIES[i] as real && a.vy == START_VELOCITIES[j] as real
  {
    RandIntCovers(radius, width - radius, x);
    RandIntCovers(radius, height - radius, y);
    ChoiceCovers(START_VELOCITIES, i);
    ChoiceCovers(START_VELOCITIES, j);
  }

  /** `start_dying`: a living, not yet dying agent enters the dying phase
      with progress 0; anything else is left alone. */
  function StartDying(a: Agent): (r: Agent)
    ensures a.dying || !a.alive ==> r == a
    ensures a.alive && !a.dying ==> r.dying && r.alive && r.dyingProgress == 0.0
    ensures r.(dying := a.dying, dyingProgress := a.dyingProgress) == a
  {
    if a.dying || !a.alive then a
    else a.(dying := true, dyingProgress := 0.0)
  }

  lemma StartDyingIdempotent(a: Agent)
    ensures StartDying(StartDying(a)) == StartDying(a)
  {
  }

  /** The needs a living step leaves behind: one more tick of age, fixed
      increments of hunger and thirst and a fixed drain of energy. */
  function LivingStep(a: Agent): Agent
  {
    a.(age := a.age + 1,
       hunger := a.hunger + HUNGER_PER_STEP,
       thirst := a.thirst + THIRST_PER_STEP,
       energy := a.energy - ENERGY_PER_STEP)
  }

  /** `update_internal_state`. The living step ignores `dt`; only the dying
      phase advances with it. */
  function UpdateInternalState(a: Agent, dt: real): (r: Agent)
    ensures !a.alive ==> r == a
    // dying: only the progress moves, until it reaches 1
    ensures a.alive && a.dying && a.dyingProgress + dt / DYING_SECONDS < 1.0 ==>
      r == a.(dyingProgress := a.dyingProgress + dt / DYING_SECONDS)
    ensures a.alive && a.dying && 1.0 <= a.dyingProgress + dt / DYING_SECONDS ==>
      r == a.(dyingProgress := 1.0, alive := false, dying := false, vx := 0.0, vy := 0.0)
    // living: fixed increments whatever dt is
    ensures a.alive && !a.dying ==>
      && r.age == a.age + 1
      && r.hunger == a.hunger + HUNGER_PER_STEP
      && r.thirst == a.thirst + THIRST_PER_STEP
      && r.health == a.health
      && r.(alive := a.alive, dying := a.dying, dyingProgress := a.dyingProgress,
            energy := a.energy, age := a.age, hunger := a.hunger, thirst := a.thirst) == a
    // energy exhaustion kills at once, without a dying phase
    ensures a.alive && !a.dying && a.energy - ENERGY_PER_STEP <= 0.0 ==>
      !r.alive && !r.dying && r.energy == 0.0
    ensures a.alive && !a.dying && 0.0 < a.energy - ENERGY_PER_STEP ==>
      r.alive && r.energy == a.energy - ENERGY_PER_STEP
    // the other limits start the dying phase
    ensures a.alive && !a.dying && 0.0 < a.energy - ENERGY_PER_STEP ==>
      (r.dying <==> a.health <= 0.0 || NEED_LIMIT <= r.hunger || NEED_LIMIT <= r.thirst)
    ensures a.alive && !a.dying && r.dying ==> r.dyingProgress == 0.0
    ensures a.alive && !a.dying && !r.dying ==> r.dyingProgress == a.dyingProgress
    ensures 0.0 <= dt ==> Inv(a) ==> Inv(r)
  {
    if !a.alive then a
    else if a.dying then
      var progress := a.dyingProgress + dt / DYING_SECONDS;
      if progress >= 1.0 then
        a.(dyingProgress := 1.0, alive := false, dying := false, vx := 0.0, vy := 0.0)
      else a.(dyingProgress := progress)
    else
      var b := LivingStep(a);
      var c := if b.energy <= 0.0 then b.(energy := 0.0, alive := false) else b;
      if c.health <= 0.0 || c.hunger >= NEED_LIMIT || c.thirst >= NEED_LIMIT || c.energy <= 0.0
      then StartDying(c)
      else c
  }

  /** The living step does not depend on the frame time. */
  lemma LivingStepIgnoresDt(a: Agent, dt1: real, dt2: real)
    requires a.alive && !a.dying
    ensures UpdateInternalState(a, dt1) == UpdateInternalState(a, dt2)
  {
  }

  /** Runs the internal update over a sequence of frame times. */
  function Run(a: Agent, dts: seq<real>): Agent
    decreases |dts|
  {
    if |dts| == 0 then a else Run(UpdateInternalState(a, dts[0]), dts[1..])
  }

  /** Death is terminal: nothing changes a dead agent again. */
  lemma {:induction false} DeadIsTerminal(a: Agent, dts: seq<real>)
    requires !a.alive
    ensures Run(a, dts) == a
    decreases |dts|
  {
    if |dts| > 0 {
      DeadIsTerminal(a, dts[1..]);
    }
  }

  /** The life-cycle invariant holds over any run with non-negative frame
      times. */
  lemma {:induction false} RunKeepsInv(a: Agent, dts: seq<real>)
    requires Inv(a)
    requires forall i :: 0 <= i < |dts| ==> 0.0 <= dts[i]
    ensures Inv(Run(a, dts))
    decreases |dts|
  {
    if |dts| > 0 {
      RunKeepsInv(UpdateInternalState(a, dts[0]), dts[1..]);
    }
  }

  /** A dying agent never recovers: after any run with non-negative frame
      times it is still dying or it is dead, and once the frame times add
      up to the time left in the dying phase it is dead. */
  lemma {:induction false} DyingEndsInDeath(a: Agent, dts: seq<real>)
    requires a.alive && a.dying && a.dyingProgress < 1.0
    requires forall i :: 0 <= i < |dts| ==> 0.0 <= dts[i]
    ensures var r := Run(a, dts); r.dying || !r.alive
    ensures DYING_SECONDS * (1.0 - a.dyingProgress) <= Sum(dts) ==> !Run(a, dts).alive
    decreases |dts|
  {
    if |dts| > 0 {
      var b := UpdateInternalState(a, dts[0]);
      if b.alive {
        DyingEndsInDeath(b, dts[1..]);
      } else {
        DeadIsTerminal(b, dts[1..]);
      }
    }
  }
}

=== FILE: config.dfy ===
/** Configuration of the simulation. WIDTH, HEIGHT and AGENT_RADIUS are the
    values config.py defines; the thresholds and resource rates that the
    update code looks up but config.py does not define are fields of
    `Params`, supplied by the caller. */
module Config {
  import opened Utils

  const WIDTH: real := 1280.0
  const HEIGHT: real := 720.0
  const AGENT_RADIUS: real := 8.0

  datatype Params = Params(
    thirstOk: real,          // THRESHOLDS["THIRST_OK"]
    thirstSeek: real,        // THRESHOLDS["THIRST_SEEK"]
    thirstCrit: real,        // THRESHOLDS["THIRST_CRIT"]
    hungerSeek: real,        // THRESHOLDS["HUNGER_SEEK"]
    hungerCrit: real,        // THRESHOLDS["HUNGER_CRIT"]
    drinkInterval: real,     // RESOURCES["DRINK_INTERVAL"]
    drinkAmount: real,       // RESOURCES["DRINK_AMOUNT"]
    eatAmount: real,         // RESOURCES["EAT_AMOUNT"]
    eatPause: real,          // RESOURCES["EAT_PAUSE"]
    foodRegenSeconds: real,  // RESOURCES["FOOD_REGEN_SECONDS"]
    chatboxBase: Colour,     // COLOURS["CHATBOX_BASE"]
    chatboxCritical: Colour  // COLOURS["CHATBOX_CRITICAL"]
  )
  {
    /** The sip loop only terminates for a positive interval. */
    predicate Valid()
    {
      drinkInterval > 0.0
    }
  }
}

=== FILE: draws.dfy ===
/** Stand-ins for Python's `random` module: each draw is a parameter, reduced
    into the range the library function returns. */
module Draws {
  import Utils

  /** `random.randint(lo, hi)`, which is `lo + randbelow(hi - lo + 1)`;
      Python raises on an empty range. */
  function RandInt(lo: int, hi: int, draw: nat): (r: int)
    requires lo <= hi
    ensures lo <= r <= hi
  {
    lo + draw % (hi - lo + 1)
  }

  /** Every value of the range is drawn by some draw. */
  lemma RandIntCovers(lo: int, hi: int, v: int)
    requires lo <= v <= hi
    ensures RandInt(lo, hi, v - lo) == v
  {
  }

  /** `random.choice(xs)`; Python raises on an empty sequence. */
  function Choice<T>(xs: seq<T>, draw: nat): (r: T)
    requires |xs| > 0
    ensures r in xs
  {
    xs[draw % |xs|]
  }

  /** Every element is drawn by some draw. */
  lemma ChoiceCovers<T>(xs: seq<T>, i: nat)
    requires i < |xs|
    ensures Choice(xs, i) == xs[i]
  {
  }

  /** `random.uniform(a, b)`, which is `a + (b - a) * random()` with
      `random()` in [0, 1). */
  function Uniform(a: real, b: real, u: real): (r: real)
    requires 0.0 <= u < 1.0
    ensures a <= b ==> a <= r <= b
  {
    var d := b - a;
    Utils.MulNonNegative(d, u);
    Utils.MulNonNegative(d, 1.0 - u);
    assert d * (1.0 - u) == d - d * u;
    a + (b - a) * u
  }
}

=== FILE: geometry.dfy ===
/** Plane geometry shared by the collision queries and the velocity guards.
    `math.hypot` and `** 0.5` are modelled by a square-root function passed in
    as a parameter; lemmas that depend on what it computes require `IsSqrt`. */
module Geometry {

  datatype Vec = Vec(x: real, y: real)

  /** A circle `(cx, cy, r)` as the pond and the bush blobs store them. */
  datatype Circle = Circle(cx: real, cy: real, r: real)

  /** `sqrt` is a square root on the non-negative reals. */
  ghost predicate IsSqrt(sqrt: real -> real)
  {
    forall x :: 0.0 <= x ==> 0.0 <= sqrt(x) && sqrt(x) * sqrt(x) == x
  }

  function SqNorm(v: Vec): real
  {
    v.x * v.x + v.y * v.y
  }

  function Dot(u: Vec, v: Vec): real
  {
    u.x * v.x + u.y * v.y
  }

  /** `math.hypot(dx, dy)`. */
  function Hypot(sqrt: real -> real, dx: real, dy: real): real
  {
    sqrt(dx * dx + dy * dy)
  }

  function Speed(sqrt: real -> real, v: Vec): real
  {
    Hypot(sqrt, v.x, v.y)
  }

  function Scale(v: Vec, k: real): Vec
  {
    Vec(v.x * k, v.y * k)
  }

  lemma ScaledSqNorm(a: real, b: real, k: real)
    ensures SqNorm(Vec(a * k, b * k)) == SqNorm(Vec(a, b)) * (k * k)
  {
  }

  lemma SquaresNonNegative(dx: real, dy: real)
    ensures 0.0 <= dx * dx
    ensures 0.0 <= dx * dx + dy * dy
  {
  }

  lemma SquareMonotone(a: real, b: real)
    ensures 0.0 <= a < b ==> a * a < b * b
    ensures 0.0 <= a <= b ==> a * a <= b * b
  {
    if 0.0 <= a <= b {
      var s := b - a;
      var t := b + a;
      assert s * t == b * b - a * a;
      assert 0.0 <= s * t;
      if a < b {
        assert 0.0 < s * t;
      }
    }
  }

  /** The square root of a square is the (non-negative) base. */
  lemma SqrtOfSquare(sqrt: real -> real, y: real)
    requires IsSqrt(sqrt)
    requires 0.0 <= y
    ensures sqrt(y * y) == y
  {
    SquaresNonNegative(y, 0.0);
    var z := sqrt(y * y);
    assert 0.0 <= z && z * z == y * y;
    SquareMonotone(z, y);
    SquareMonotone(y, z);
  }

  /** A root is within a non-negative bound iff its argument is within the
      bound's square. */
  lemma SqrtAtMost(sqrt: real -> real, x: real, bound: real)
    requires IsSqrt(sqrt)
    requires 0.0 <= x && 0.0 <= bound
    ensures sqrt(x) <= bound <==> x <= bound * bound
  {
    var s := sqrt(x);
    assert 0.0 <= s && s * s == x;
    SquareMonotone(s, bound);
    SquareMonotone(bound, s);
  }

  lemma {:induction false} HypotNonNegative(sqrt: real -> real, dx: real, dy: real)
    requires IsSqrt(sqrt)
    ensures 0.0 <= Hypot(sqrt, dx, dy)
    ensures Hypot(sqrt, dx, dy) * Hypot(sqrt, dx, dy) == dx * dx + dy * dy
  {
    SquaresNonNegative(dx, dy);
  }

  /** A vector whose squared norm is `len * len` has speed `len`. */
  lemma SpeedOfLength(sqrt: real -> real, v: Vec, len: real)
    requires IsSqrt(sqrt)
    requires 0.0 <= len && SqNorm(v) == len * len
    ensures Speed(sqrt, v) == len
  {
    HypotNonNegative(sqrt, v.x, v.y);
    var h := Hypot(sqrt, v.x, v.y);
    SquareMonotone(h, len);
    SquareMonotone(len, h);
  }
}

=== FILE: interaction.dfy ===
/** The pure parts of the hover and follow interaction (interaction.py):
    picking the agent under the mouse, the follow toggle, the followed
    agent, and what an agent's tooltip shows. The id of the followed agent,
    a module-level variable in the source, is passed in and returned. */
module Interaction {
  import opened Optional
  import opened Geometry
  import opened Utils
  import opened Config
  import opened Agents

  /** The hover radius is generous: the agent radius plus 15 pixels. */
  const HOVER_RADIUS: real := AGENT_RADIUS + 15.0

  /** The index of the first element from `i` on that satisfies `P`. */
  function FirstFrom<T>(xs: seq<T>, P: T -> bool, i: nat): (r: Option<nat>)
    requires i <= |xs|
    ensures r.None? <==> forall j :: i <= j < |xs| ==> !P(xs[j])
    ensures r.Some? ==>
      && i <= r.value < |xs| && P(xs[r.value])
      && forall j :: i <= j < r.value ==> !P(xs[j])
    decreases |xs| - i
  {
    if i == |xs| then None
    else if P(xs[i]) then Some(i)
    else FirstFrom(xs, P, i + 1)
  }

  /** The first element that satisfies `P`, as the source's early-return
      loops find it. */
  function First<T>(xs: seq<T>, P: T -> bool): (r: Option<T>)
    ensures r.None? <==> forall j :: 0 <= j < |xs| ==> !P(xs[j])
    ensures r.Some? ==> exists k :: FirstAt(xs, P, k) && r.value == xs[k]
  {
    var k := FirstFrom(xs, P, 0);
    if k.None? then None
    else
      assert FirstAt(xs, P, k.value);
      Some(xs[k.value])
  }

  /** Element `k` satisfies `P` and no earlier one does. */
  ghost predicate FirstAt<T>(xs: seq<T>, P: T -> bool, k: int)
  {
    && 0 <= k < |xs| && P(xs[k])
    && forall j :: 0 <= j < k ==> !P(xs[j])
  }

  /** The mouse at (mx, my) is over agent `a`; the distance is
      `(dx * dx + dy * dy) ** 0.5`, with the root passed in. */
  predicate Hovers(sqrt: real -> real, a: Agent, mx: real, my: real)
  {
    Hypot(sqrt, a.x - mx, a.y - my) <= HOVER_RADIUS
  }

  /** For a true square root, hovering is the closed disc of radius
      `HOVER_RADIUS` around the agent. */
  lemma HoversIsDisc(sqrt: real -> real, a: Agent, mx: real, my: real)
    requires IsSqrt(sqrt)
    ensures Hovers(sqrt, a, mx, my) <==>
      (a.x - mx) * (a.x - mx) + (a.y - my) * (a.y - my) <= HOVER_RADIUS * HOVER_RADIUS
  {
    HypotNonNegative(sqrt, a.x - mx, a.y - my);
    var h := Hypot(sqrt, a.x - mx, a.y - my);
    SquareMonotone(h, HOVER_RADIUS);
    SquareMonotone(HOVER_RADIUS, h);
  }

  /** `get_agent_at_mouse`: the first agent, in list order, under the
      mouse, or none. */
  function AgentAtMouse(sqrt: real -> real, agents: seq<Agent>, mx: real, my: real): (r: Option<Agent>)
    ensures r.None? <==> forall j :: 0 <= j < |agents| ==> !Hovers(sqrt, agents[j], mx, my)
    ensures r.Some? ==> exists k ::
      && 0 <= k < |agents| && r.value == agents[k] && Hovers(sqrt, agents[k], mx, my)
      && forall j :: 0 <= j < k ==> !Hovers(sqrt, agents[j], mx, my)
  {
    First(agents, (a: Agent) => Hovers(sqrt, a, mx, my))
  }

  /** `toggle_follow`: following the agent again stops following it;
      any other agent becomes the followed one. */
  function ToggleFollow(followed: Option<int>, id: int): (r: Option<int>)
    ensures r == Some(id) <==> followed != Some(id)
    ensures r.None? <==> followed == Some(id)
  {
    if followed == Some(id) then None else Some(id)
  }

  /** Toggling the same agent twice restores following it, and otherwise
      ends with nobody followed. */
  lemma ToggleTwice(followed: Option<int>, id: int)
    ensures ToggleFollow(ToggleFollow(followed, id), id) ==
      if followed == Some(id) then followed else None
  {
  }

  /** `get_followed_agent`: the first agent with the followed id, or none
      when nobody is followed or the agent is gone. */
  function FollowedAgent(followed: Option<int>, agents: seq<Agent>): (r: Option<Agent>)
    ensures followed.None? ==> r.None?
    ensures followed.Some? ==>
      (r.None? <==> forall j :: 0 <= j < |agents| ==> agents[j].id != followed.value)
    ensures r.Some? ==> followed == Some(r.value.id) && r.value in agents
    ensures r.Some? ==> exists k ::
      && 0 <= k < |agents| && r.value == agents[k]
      && forall j :: 0 <= j < k ==> agents[j].id != r.value.id
  {
    if followed.None? then None
    else
      var id := followed.value;
      var r := First(agents, (a: Agent) => a.id == id);
      assert r.Some? ==> r.value in agents;
      r
  }

  /** Critical: thirst or hunger at or past its critical threshold. */
  predicate Critical(p: Params, a: Agent)
  {
    a.thirst >= p.thirstCrit || a.hunger >= p.hungerCrit
  }

  /** `get_agent_state_color`: the critical chatbox colour for a critical
      agent and the base colour otherwise. */
  function StateColour(p: Params, a: Agent): (r: Colour)
    ensures r == p.chatboxCritical || r == p.chatboxBase
    ensures p.chatboxCritical != p.chatboxBase ==> (r == p.chatboxCritical <==> Critical(p, a))
  {
    if Critical(p, a) then p.chatboxCritical else p.chatboxBase
  }

  /** A needier agent (no less thirsty, no less hungry) is never shown in
      a calmer colour. */
  lemma StateColourMonotone(p: Params, a: Agent, b: Agent)
    requires a.thirst <= b.thirst && a.hunger <= b.hunger
    requires StateColour(p, a) == p.chatboxCritical
    ensures StateColour(p, b) == p.chatboxCritical
  {
  }

  /** The need a tooltip shows. */
  datatype Need = Thirst | Hunger

  /** The level of a need; the tooltip shows it rounded. */
  function Level(a: Agent, need: Need): real
  {
    match need
    case Thirst => a.thirst
    case Hunger => a.hunger
  }

  /** Past its seek threshold. */
  predicate Pressing(p: Params, a: Agent, need: Need)
  {
    match need
    case Thirst => a.thirst >= p.thirstSeek
    case Hunger => a.hunger >= p.hungerSeek
  }

  /** `get_agent_state_value`: the icon to show, none ("OK") when neither
      need is past its seek threshold; when both are, the higher level
      wins, thirst on a tie. */
  function StateIcon(p: Params, a: Agent): (r: Option<Need>)
    ensures r.None? <==> !Pressing(p, a, Thirst) && !Pressing(p, a, Hunger)
    ensures r.Some? ==> Pressing(p, a, r.value)
    ensures r == Some(Thirst) && Pressing(p, a, Hunger) ==> a.hunger <= a.thirst
    ensures r == Some(Hunger) && Pressing(p, a, Thirst) ==> a.thirst < a.hunger
  {
    var thirsty := a.thirst >= p.thirstSeek;
    var hungry := a.hunger >= p.hungerSeek;
    if thirsty && hungry then
      if a.thirst >= a.hunger then Some(Thirst) else Some(Hunger)
    else if thirsty then Some(Thirst)
    else if hungry then Some(Hunger)
    else None
  }

  /** The shown need is the most urgent pressing one: its level is at
      least that of every pressing need. */
  lemma StateIconIsMostUrgent(p: Params, a: Agent, need: Need)
    requires Pressing(p, a, need)
    ensures StateIcon(p, a).Some?
    ensures Level(a, need) <= Level(a, StateIcon(p, a).value)
  {
  }

  /** With each critical threshold at or above its seek threshold, a
      tooltip in the critical colour always shows an icon. */
  lemma CriticalShowsIcon(p: Params, a: Agent)
    requires p.thirstSeek <= p.thirstCrit && p.hungerSeek <= p.hungerCrit
    requires Critical(p, a)
    ensures StateIcon(p, a).Some?
  {
  }
}

=== FILE: optional.dfy ===
/** The optional value that stands for Python's `None`. */
module Optional {
  datatype Option<T> = None | Some(value: T)
}

=== FILE: resources.dfy ===
/** The resource field (resources.py): the pond and the food bushes, their
    circle geometry, the contact and collision queries, the bounce, and the
    food stock of a bush. Procedural generation is not modelled; a new food
    item comes from an oracle argument. */
module Resources {
  import opened Optional
  import opened Geometry
  import opened Utils
  import Config

  datatype FoodItem = FoodItem(x: real, y: real)

  datatype FoodBush = FoodBush(
    x: real,
    y: real,
    capacity: int,
    food: seq<FoodItem>,
    regenTimer: real,
    blobCircles: seq<Circle>)

  datatype Sparkle = Sparkle(x: real, y: real, r: int)

  datatype Pond = Pond(circles: seq<Circle>, sparkles: seq<Sparkle>)

  /** The tuple `(cx, cy, cr, dist, overlap)` a collision query returns. */
  datatype Hit = Hit(circle: Circle, dist: real, overlap: real)

  /** The tuple `(cx, cy, cr, dist)` a contact query returns. */
  datatype Contact = Contact(circle: Circle, dist: real)

  /** Python's default contact margin `eps = 2.0` of `touch_circle`,
      `touch_pond` and `touch_bush`. The contact queries here take `eps` as
      an argument; a call that relies on the default passes this value.
      The tick always passes its own margins (6 at the pond, 4 at a bush). */
  const DEFAULT_EPS: real := 2.0

  /** The upper bound of the initial-fill loop. */
  const SPAWN_SAFETY: nat := 200

  // ---------------------------------------------------------------------
  // Solid collision: the circle with the greatest positive overlap
  // ---------------------------------------------------------------------

  function CentreDist(sqrt: real -> real, x: real, y: real, c: Circle): real
  {
    Hypot(sqrt, x - c.cx, y - c.cy)
  }

  function Overlap(sqrt: real -> real, x: real, y: real, radius: real, c: Circle): real
  {
    (radius + c.r) - CentreDist(sqrt, x, y, c)
  }

  function HitOf(sqrt: real -> real, x: real, y: real, radius: real, c: Circle): Hit
  {
    Hit(c, CentreDist(sqrt, x, y, c), Overlap(sqrt, x, y, radius, c))
  }

  /** Among the first `n` circles, circle `k` has positive overlap, none
      overlaps more, and every earlier one overlaps strictly less. */
  ghost predicate GreatestOverlapAt(sqrt: real -> real, x: real, y: real, radius: real,
                                    circles: seq<Circle>, k: int, n: int)
    requires n <= |circles|
  {
    && 0 <= k < n
    && 0.0 < Overlap(sqrt, x, y, radius, circles[k])
    && (forall j :: 0 <= j < n ==>
          Overlap(sqrt, x, y, radius, circles[j]) <= Overlap(sqrt, x, y, radius, circles[k]))
    && (forall j :: 0 <= j < k ==>
          Overlap(sqrt, x, y, radius, circles[j]) < Overlap(sqrt, x, y, radius, circles[k]))
  }

  /** What the scan has established after the first `n` circles. */
  ghost predicate CollisionAfter(sqrt: real -> real, x: real, y: real, radius: real,
                                 circles: seq<Circle>, n: int, best: Option<Hit>)
    requires 0 <= n <= |circles|
  {
    && (best.None? <==> forall j :: 0 <= j < n ==> Overlap(sqrt, x, y, radius, circles[j]) <= 0.0)
    && (best.Some? ==> exists k ::
          GreatestOverlapAt(sqrt, x, y, radius, circles, k, n) && best.value == HitOf(sqrt, x, y, radius, circles[k]))
  }

  /** One loop step: `best_overlap` starts at 0.0 and always equals the
      overlap of `best`, so it is read off `best`. */
  function KeepGreater(best: Option<Hit>, h: Hit): Option<Hit>
  {
    var bestOverlap := if best.Some? then best.value.overlap else 0.0;
    if h.overlap > bestOverlap then Some(h) else best
  }

  /** A circle that overlaps more than the best so far becomes the best. */
  lemma CollisionTakesNew(sqrt: real -> real, x: real, y: real, radius: real,
                          circles: seq<Circle>, i: nat, bestOverlap: real)
    requires i < |circles|
    requires 0.0 <= bestOverlap < Overlap(sqrt, x, y, radius, circles[i])
    requires forall j :: 0 <= j < i ==> Overlap(sqrt, x, y, radius, circles[j]) <= bestOverlap
    ensures GreatestOverlapAt(sqrt, x, y, radius, circles, i, i + 1)
  {
  }

  /** A circle that overlaps no more than the best so far leaves it best. */
  lemma CollisionKeepsOld(sqrt: real -> real, x: real, y: real, radius: real,
                          circles: seq<Circle>, i: nat, k: int)
    requires i < |circles|
    requires GreatestOverlapAt(sqrt, x, y, radius, circles, k, i)
    requires Overlap(sqrt, x, y, radius, circles[i]) <= Overlap(sqrt, x, y, radius, circles[k])
    ensures GreatestOverlapAt(sqrt, x, y, radius, circles, k, i + 1)
  {
  }

  lemma CollisionStep(sqrt: real -> real, x: real, y: real, radius: real,
                      circles: seq<Circle>, i: nat, best: Option<Hit>)
    requires i < |circles|
    requires CollisionAfter(sqrt, x, y, radius, circles, i, best)
    ensures CollisionAfter(sqrt, x, y, radius, circles, i + 1,
                           KeepGreater(best, HitOf(sqrt, x, y, radius, circles[i])))
  {
    var o := Overlap(sqrt, x, y, radius, circles[i]);
    if best.Some? {
      var k :| GreatestOverlapAt(sqrt, x, y, radius, circles, k, i) && best.value == HitOf(sqrt, x, y, radius, circles[k]);
      if o > best.value.overlap {
        CollisionTakesNew(sqrt, x, y, radius, circles, i, best.value.overlap);
      } else {
        CollisionKeepsOld(sqrt, x, y, radius, circles, i, k);
      }
    } else if o > 0.0 {
      CollisionTakesNew(sqrt, x, y, radius, circles, i, 0.0);
    }
  }

  function CollisionScan(sqrt: real -> real, x: real, y: real, radius: real,
                         circles: seq<Circle>, i: nat, best: Option<Hit>): (r: Option<Hit>)
    requires i <= |circles|
    requires CollisionAfter(sqrt, x, y, radius, circles, i, best)
    ensures CollisionAfter(sqrt, x, y, radius, circles, |circles|, r)
    decreases |circles| - i
  {
    if i == |circles| then best
    else
      CollisionStep(sqrt, x, y, radius, circles, i, best);
      CollisionScan(sqrt, x, y, radius, circles, i + 1,
                    KeepGreater(best, HitOf(sqrt, x, y, radius, circles[i])))
  }

  /** `_closest_collision_circle`: the first circle of greatest positive
      overlap `(radius + cr) - dist`, or None when nothing overlaps. */
  function ClosestCollisionCircle(sqrt: real -> real, x: real, y: real, radius: real,
                                  circles: seq<Circle>): (r: Option<Hit>)
    ensures r.None? <==> forall j :: 0 <= j < |circles| ==> Overlap(sqrt, x, y, radius, circles[j]) <= 0.0
    ensures r.Some? ==> exists k ::
      GreatestOverlapAt(sqrt, x, y, radius, circles, k, |circles|) && r.value == HitOf(sqrt, x, y, radius, circles[k])
  {
    CollisionScan(sqrt, x, y, radius, circles, 0, None)
  }

  /** `collide_with_pond`: the deepest overlap among the pond's circles. */
  function CollideWithPond(sqrt: real -> real, x: real, y: real, agentR: real, pond: Pond): (r: Option<Hit>)
    ensures r.None? <==> forall j :: 0 <= j < |pond.circles| ==> Overlap(sqrt, x, y, agentR, pond.circles[j]) <= 0.0
    ensures r.Some? ==> exists k ::
      GreatestOverlapAt(sqrt, x, y, agentR, pond.circles, k, |pond.circles|)
      && r.value == HitOf(sqrt, x, y, agentR, pond.circles[k])
  {
    ClosestCollisionCircle(sqrt, x, y, agentR, pond.circles)
  }

  /** `collide_with_bush`: the deepest overlap among the bush's blobs. */
  function CollideWithBush(sqrt: real -> real, x: real, y: real, agentR: real, bush: FoodBush): (r: Option<Hit>)
    ensures r.None? <==> forall j :: 0 <= j < |bush.blobCircles| ==> Overlap(sqrt, x, y, agentR, bush.blobCircles[j]) <= 0.0
    ensures r.Some? ==> exists k ::
      GreatestOverlapAt(sqrt, x, y, agentR, bush.blobCircles, k, |bush.blobCircles|)
      && r.value == HitOf(sqrt, x, y, agentR, bush.blobCircles[k])
  {
    ClosestCollisionCircle(sqrt, x, y, agentR, bush.blobCircles)
  }

  // ---------------------------------------------------------------------
  // Contact: the nearest circle within contact distance
  // ---------------------------------------------------------------------

  ghost predicate InContact(sqrt: real -> real, x: real, y: real, agentR: real, eps: real, c: Circle)
  {
    CentreDist(sqrt, x, y, c) <= agentR + c.r + eps
  }

  function ContactOf(sqrt: real -> real, x: real, y: real, c: Circle): Contact
  {
    Contact(c, CentreDist(sqrt, x, y, c))
  }

  /** Among the first `n` circles, circle `k` is in contact, no contact is
      nearer, and every earlier contact is strictly farther. */
  ghost predicate NearestContactAt(sqrt: real -> real, x: real, y: real, agentR: real, eps: real,
                                   circles: seq<Circle>, k: int, n: int)
    requires n <= |circles|
  {
    && 0 <= k < n
    && InContact(sqrt, x, y, agentR, eps, circles[k])
    && (forall j :: 0 <= j < n && InContact(sqrt, x, y, agentR, eps, circles[j]) ==>
          CentreDist(sqrt, x, y, circles[k]) <= CentreDist(sqrt, x, y, circles[j]))
    && (forall j :: 0 <= j < k && InContact(sqrt, x, y, agentR, eps, circles[j]) ==>
          CentreDist(sqrt, x, y, circles[k]) < CentreDist(sqrt, x, y, circles[j]))
  }

  ghost predicate ContactAfter(sqrt: real -> real, x: real, y: real, agentR: real, eps: real,
                               circles: seq<Circle>, n: int, best: Option<Contact>)
    requires 0 <= n <= |circles|
  {
    && (best.None? <==> forall j :: 0 <= j < n ==> !InContact(sqrt, x, y, agentR, eps, circles[j]))
    && (best.Some? ==> exists k ::
          NearestContactAt(sqrt, x, y, agentR, eps, circles, k, n) && best.value == ContactOf(sqrt, x, y, circles[k]))
  }

  /** One loop step: `best_dist` starts at infinity, which every finite
      distance beats, and then always equals the distance of `best`. */
  function KeepNearer(best: Option<Contact>, c: Contact, limit: real): Option<Contact>
  {
    if c.dist <= limit && (best.None? || c.dist < best.value.dist) then Some(c) else best
  }

  /** A contact nearer than every earlier contact becomes the best. */
  lemma ContactTakesNew(sqrt: real -> real, x: real, y: real, agentR: real, eps: real,
                        circles: seq<Circle>, i: nat, bound: Option<real>)
    requires i < |circles|
    requires InContact(sqrt, x, y, agentR, eps, circles[i])
    requires bound.Some? ==> CentreDist(sqrt, x, y, circles[i]) < bound.value
    requires forall j :: 0 <= j < i && InContact(sqrt, x, y, agentR, eps, circles[j]) ==>
      bound.Some? && bound.value <= CentreDist(sqrt, x, y, circles[j])
    ensures NearestContactAt(sqrt, x, y, agentR, eps, circles, i, i + 1)
  {
  }

  /** A circle out of contact, or no nearer, leaves the best in place. */
  lemma ContactKeepsOld(sqrt: real -> real, x: real, y: real, agentR: real, eps: real,
                        circles: seq<Circle>, i: nat, k: int)
    requires i < |circles|
    requires NearestContactAt(sqrt, x, y, agentR, eps, circles, k, i)
    requires InContact(sqrt, x, y, agentR, eps, circles[i]) ==>
      CentreDist(sqrt, x, y, circles[k]) <= CentreDist(sqrt, x, y, circles[i])
    ensures NearestContactAt(sqrt, x, y, agentR, eps, circles, k, i + 1)
  {
  }

  lemma ContactStep(sqrt: real -> real, x: real, y: real, agentR: real, eps: real,
                    circles: seq<Circle>, i: nat, best: Option<Contact>)
    requires i < |circles|
    requires ContactAfter(sqrt, x, y, agentR, eps, circles, i, best)
    ensures ContactAfter(sqrt, x, y, agentR, eps, circles, i + 1,
                         KeepNearer(best, ContactOf(sqrt, x, y, circles[i]), agentR + circles[i].r + eps))
  {
    var d := CentreDist(sqrt, x, y, circles[i]);
    var touching := InContact(sqrt, x, y, agentR, eps, circles[i]);
    if best.Some? {
      var k :| NearestContactAt(sqrt, x, y, agentR, eps, circles, k, i) && best.value == ContactOf(sqrt, x, y, circles[k]);
      if touching && d < best.value.dist {
        ContactTakesNew(sqrt, x, y, agentR, eps, circles, i, Some(best.value.dist));
      } else {
        ContactKeepsOld(sqrt, x, y, agentR, eps, circles, i, k);
      }
    } else if touching {
      ContactTakesNew(sqrt, x, y, agentR, eps, circles, i, None);
    }
  }

  function ContactScan(sqrt: real -> real, x: real, y: real, agentR: real, eps: real,
                       circles: seq<Circle>, i: nat, best: Option<Contact>): (r: Option<Contact>)
    requires i <= |circles|
    requires ContactAfter(sqrt, x, y, agentR, eps, circles, i, best)
    ensures ContactAfter(sqrt, x, y, agentR, eps, circles, |circles|, r)
    decreases |circles| - i
  {
    if i == |circles| then best
    else
      ContactStep(sqrt, x, y, agentR, eps, circles, i, best);
      ContactScan(sqrt, x, y, agentR, eps, circles, i + 1,
                  KeepNearer(best, ContactOf(sqrt, x, y, circles[i]), agentR + circles[i].r + eps))
  }

  /** `touch_circle`: the first circle of least centre distance among those
      with `dist <= agent_r + cr + eps`, or None when none is that close. */
  function TouchCircle(sqrt: real -> real, x: real, y: real, agentR: real,
                       circles: seq<Circle>, eps: real): (r: Option<Contact>)
    ensures r.None? <==> forall j :: 0 <= j < |circles| ==> !InContact(sqrt, x, y, agentR, eps, circles[j])
    ensures r.Some? ==> exists k ::
      NearestContactAt(sqrt, x, y, agentR, eps, circles, k, |circles|) && r.value == ContactOf(sqrt, x, y, circles[k])
  {
    ContactScan(sqrt, x, y, agentR, eps, circles, 0, None)
  }

  /** `touch_pond`: the nearest pond circle within contact distance
      (Python's default margin is `DEFAULT_EPS`). */
  function TouchPond(sqrt: real -> real, x: real, y: real, agentR: real, pond: Pond, eps: real): (r: Option<Contact>)
    ensures r.None? <==> forall j :: 0 <= j < |pond.circles| ==> !InContact(sqrt, x, y, agentR, eps, pond.circles[j])
    ensures r.Some? ==> exists k ::
      NearestContactAt(sqrt, x, y, agentR, eps, pond.circles, k, |pond.circles|)
      && r.value == ContactOf(sqrt, x, y, pond.circles[k])
  {
    TouchCircle(sqrt, x, y, agentR, pond.circles, eps)
  }

  /** `touch_bush`: the nearest blob of the bush within contact distance
      (Python's default margin is `DEFAULT_EPS`). */
  function TouchBush(sqrt: real -> real, x: real, y: real, agentR: real, bush: FoodBush, eps: real): (r: Option<Contact>)
    ensures r.None? <==> forall j :: 0 <= j < |bush.blobCircles| ==> !InContact(sqrt, x, y, agentR, eps, bush.blobCircles[j])
    ensures r.Some? ==> exists k ::
      NearestContactAt(sqrt, x, y, agentR, eps, bush.blobCircles, k, |bush.blobCircles|)
      && r.value == ContactOf(sqrt, x, y, bush.blobCircles[k])
  {
    TouchCircle(sqrt, x, y, agentR, bush.blobCircles, eps)
  }

  /** Overlap implies contact: a circle that collides is also touched, for
      any non-negative epsilon. */
  lemma CollisionImpliesContact(sqrt: real -> real, x: real, y: real, agentR: real, eps: real, circles: seq<Circle>)
    requires 0.0 <= eps
    ensures ClosestCollisionCircle(sqrt, x, y, agentR, circles).Some? ==> TouchCircle(sqrt, x, y, agentR, circles, eps).Some?
  {
    if ClosestCollisionCircle(sqrt, x, y, agentR, circles).Some? {
      var k :| 0 <= k < |circles| && 0.0 < Overlap(sqrt, x, y, agentR, circles[k]);
      assert InContact(sqrt, x, y, agentR, eps, circles[k]);
    }
  }

  // ---------------------------------------------------------------------
  // Bounce
  // ---------------------------------------------------------------------

  /** Position and velocity `(nx, ny, rvx, rvy)` after a bounce. */
  datatype Motion = Motion(x: real, y: real, vx: real, vy: real)

  /** The outward normal, `(1, 0)` when the distance is exactly zero. */
  function BounceNormal(nx: real, ny: real, cx: real, cy: real, dist: real): Vec
  {
    if dist == 0.0 then Vec(1.0, 0.0) else Vec((nx - cx) / dist, (ny - cy) / dist)
  }

  function Perp(n: Vec): Vec
  {
    Vec(-n.y, n.x)
  }

  /** `rv` is `v - 2 (v . n) n`, the reflection about the line with normal
      `n` for any normal: the tangential component is kept and the normal
      component becomes `(v . n)(1 - 2 |n|^2)`. For a unit normal that is
      the negated normal component, and the speed is kept; for the zero
      normal `v` is kept as it is. */
  ghost predicate Reflected(v: Vec, rv: Vec, n: Vec)
  {
    && Dot(rv, Perp(n)) == Dot(v, Perp(n))
    && Dot(rv, n) == Dot(v, n) - 2.0 * Dot(v, n) * SqNorm(n)
    && (SqNorm(n) == 1.0 ==> Dot(rv, n) == -Dot(v, n) && SqNorm(rv) == SqNorm(v))
    && (n == Vec(0.0, 0.0) ==> rv == v)
  }

  /** The reflection is determined for a non-zero normal and for the zero
      vector: two vectors that both reflect `v` about `n` are equal. */
  lemma {:induction false} ReflectedUnique(v: Vec, r1: Vec, r2: Vec, n: Vec)
    requires SqNorm(n) != 0.0 || n == Vec(0.0, 0.0)
    requires Reflected(v, r1, n) && Reflected(v, r2, n)
    ensures r1 == r2
  {
    if n == Vec(0.0, 0.0) {
      return;
    }
    var a := r1.x - r2.x;
    var b := r1.y - r2.y;
    assert b * n.x - a * n.y == 0.0;
    assert a * n.x + b * n.y == 0.0;
    var q := SqNorm(n);
    assert a * q == n.x * (a * n.x + b * n.y) - n.y * (b * n.x - a * n.y);
    assert b * q == n.y * (a * n.x + b * n.y) + n.x * (b * n.x - a * n.y);
    CancelNonZero(a, q);
    CancelNonZero(b, q);
  }

  lemma CancelNonZero(x: real, q: real)
    requires q != 0.0 && x * q == 0.0
    ensures x == 0.0
  {
  }

  /** `v - 2 (v . n) n`. */
  function Reflect(v: Vec, n: Vec): (rv: Vec)
    ensures Reflected(v, rv, n)
  {
    ReflectionFacts(v, n);
    Vec(v.x - 2.0 * Dot(v, n) * n.x, v.y - 2.0 * Dot(v, n) * n.y)
  }

  lemma ReflectionFacts(v: Vec, n: Vec)
    ensures Reflected(v, Vec(v.x - 2.0 * Dot(v, n) * n.x, v.y - 2.0 * Dot(v, n) * n.y), n)
  {
    var d := Dot(v, n);
    var rv := Vec(v.x - 2.0 * d * n.x, v.y - 2.0 * d * n.y);
    assert Dot(rv, n) == d - 2.0 * d * SqNorm(n);
    assert SqNorm(rv) == SqNorm(v) - 4.0 * d * d + 4.0 * d * d * SqNorm(n);
    ZeroNormalKeeps(v, n);
  }

  /** Reflecting about the zero vector changes nothing. */
  lemma ZeroNormalKeeps(v: Vec, n: Vec)
    ensures n == Vec(0.0, 0.0) ==>
      Vec(v.x - 2.0 * Dot(v, n) * n.x, v.y - 2.0 * Dot(v, n) * n.y) == v
  {
  }

  /** `m`'s position is `(x, y)` moved `push` along `n`. */
  ghost predicate PushedAlong(x: real, y: real, m: Motion, n: Vec, push: real)
  {
    m.x - x == n.x * push && m.y - y == n.y * push
  }

  /** Moves a position `push` along `n` and reflects the velocity about
      `n`. */
  function PushAndReflect(x: real, y: real, v: Vec, n: Vec, push: real): (m: Motion)
    ensures PushedAlong(x, y, m, n, push)
    ensures Reflected(v, Vec(m.vx, m.vy), n)
  {
    var rv := Reflect(v, n);
    Motion(x + n.x * push, y + n.y * push, rv.x, rv.y)
  }

  /** `bounce_off_circle`: push the position `overlap + 1` along the normal
      and reflect the velocity about it. The radius `cr` is unused, as in
      the source. */
  function BounceOffCircle(nx: real, ny: real, vx: real, vy: real,
                           cx: real, cy: real, cr: real, dist: real, overlap: real): (m: Motion)
    ensures dist == 0.0 ==> m.x == nx + overlap + 1.0 && m.y == ny
    ensures PushedAlong(nx, ny, m, BounceNormal(nx, ny, cx, cy, dist), overlap + 1.0)
    ensures Reflected(Vec(vx, vy), Vec(m.vx, m.vy), BounceNormal(nx, ny, cx, cy, dist))
  {
    var n := BounceNormal(nx, ny, cx, cy, dist);
    assert dist == 0.0 ==> n == Vec(1.0, 0.0);
    var m := PushAndReflect(nx, ny, Vec(vx, vy), n, overlap + 1.0);
    assert PushedAlong(nx, ny, m, n, overlap + 1.0);
    assert Reflected(Vec(vx, vy), Vec(m.vx, m.vy), n);
    m
  }

  lemma CancelPositive(x: real, d: real)
    requires 0.0 < d
    requires x * d == 0.0
    ensures x == 0.0
  {
    MulSign(x, d);
  }

  /** Away from the centre the normal times the distance is the offset. */
  lemma NormalTimesDist(nx: real, ny: real, cx: real, cy: real, dist: real)
    requires dist != 0.0
    ensures var n := BounceNormal(nx, ny, cx, cy, dist);
      n.x * dist == nx - cx && n.y * dist == ny - cy
  {
  }

  /** The normal is a unit vector when `dist` is the distance from the
      bounced position to the centre, or exactly zero. */
  lemma UnitNormal(nx: real, ny: real, cx: real, cy: real, dist: real)
    requires dist == 0.0 || dist * dist == SqNorm(Vec(nx - cx, ny - cy))
    ensures SqNorm(BounceNormal(nx, ny, cx, cy, dist)) == 1.0
  {
    if dist != 0.0 {
      var n := BounceNormal(nx, ny, cx, cy, dist);
      NormalTimesDist(nx, ny, cx, cy, dist);
      ScaledSqNorm(n.x, n.y, dist);
      var dd := dist * dist;
      assert (SqNorm(n) - 1.0) * dd == 0.0;
      SquareMonotone(0.0, if dist > 0.0 then dist else -dist);
      CancelPositive(SqNorm(n) - 1.0, dd);
    }
  }

  /** With a consistent distance a bounce preserves speed and leaves the
      agent exactly one unit clear of the circle's rim: the new centre
      distance is `radius + cr + 1` when `overlap = radius + cr - dist`. */
  lemma BounceSeparates(nx: real, ny: real, vx: real, vy: real,
                        cx: real, cy: real, cr: real, dist: real, overlap: real)
    requires 0.0 < dist && dist * dist == SqNorm(Vec(nx - cx, ny - cy))
    ensures var m := BounceOffCircle(nx, ny, vx, vy, cx, cy, cr, dist, overlap);
      && SqNorm(Vec(m.vx, m.vy)) == SqNorm(Vec(vx, vy))
      && SqNorm(Vec(m.x - cx, m.y - cy)) == (dist + overlap + 1.0) * (dist + overlap + 1.0)
  {
    UnitNormal(nx, ny, cx, cy, dist);
    NormalTimesDist(nx, ny, cx, cy, dist);
    var m := BounceOffCircle(nx, ny, vx, vy, cx, cy, cr, dist, overlap);
    var n := BounceNormal(nx, ny, cx, cy, dist);
    PushedFromCentre(nx, ny, cx, cy, m, n, dist, overlap + 1.0);
  }

  /** Pushing `push` along a unit normal a point `dist` along it from the
      centre leaves it `dist + push` from the centre. */
  lemma PushedFromCentre(nx: real, ny: real, cx: real, cy: real, m: Motion, n: Vec, dist: real, push: real)
    requires SqNorm(n) == 1.0
    requires n.x * dist == nx - cx && n.y * dist == ny - cy
    requires PushedAlong(nx, ny, m, n, push)
    ensures SqNorm(Vec(m.x - cx, m.y - cy)) == (dist + push) * (dist + push)
  {
    PushFromCentre(m.x, nx, cx, n.x, dist, push);
    PushFromCentre(m.y, ny, cy, n.y, dist, push);
    ScaledSqNorm(n.x, n.y, dist + push);
  }

  /** A point `push` along the normal from a point `dist` along it from the
      centre is `dist + push` along it from the centre. */
  lemma PushFromCentre(m: real, p: real, c: real, n: real, dist: real, push: real)
    requires m - p == n * push && n * dist == p - c
    ensures m - c == n * (dist + push)
  {
  }

  // ---------------------------------------------------------------------
  // Food stock
  // ---------------------------------------------------------------------

  /** `after` is `before` with the food item at index `k` taken out and
      every other item kept, in order; nothing else differs. */
  ghost predicate RemovedOneAt(before: FoodBush, after: FoodBush, k: int)
  {
    && 0 <= k < |before.food|
    && after.(food := before.food) == before
    && |after.food| == |before.food| - 1
    && (forall j :: 0 <= j < |after.food| ==> after.food[j] == before.food[if j < k then j else j + 1])
  }

  ghost predicate RemovedOne(before: FoodBush, after: FoodBush)
  {
    exists k :: RemovedOneAt(before, after, k)
  }

  /** `pick_food_from_bush`: the random index `randrange(len(food))` is
      `pick` reduced modulo the stock. */
  function PickFoodFromBush(bush: FoodBush, pick: nat): (r: (bool, FoodBush))
    ensures r.0 <==> |bush.food| > 0
    ensures !r.0 ==> r.1 == bush
    ensures r.0 ==> RemovedOneAt(bush, r.1, pick % |bush.food|)
    ensures r.0 ==> multiset(r.1.food) + multiset{bush.food[pick % |bush.food|]} == multiset(bush.food)
  {
    if |bush.food| == 0 then (false, bush)
    else
      var k := pick % |bush.food|;
      assert bush.food == bush.food[..k] + [bush.food[k]] + bush.food[k + 1..];
      (true, bush.(food := bush.food[..k] + bush.food[k + 1..]))
  }

  /** Consumption is atomic: a bush with a single item feeds exactly one of
      two consecutive picks. */
  lemma SingleItemFeedsOnce(bush: FoodBush, pick1: nat, pick2: nat)
    requires |bush.food| == 1
    ensures var first := PickFoodFromBush(bush, pick1);
      var second := PickFoodFromBush(first.1, pick2);
      first.0 && !second.0 && |second.1.food| == 0
  {
  }

  /** `FoodBush.update_regen` with the oracle's answer `newItem` for the
      `_new_food_item` call the regeneration step makes. */
  function UpdateRegen(p: Config.Params, bush: FoodBush, dt: real, newItem: Option<FoodItem>): (r: FoodBush)
    ensures |bush.food| >= bush.capacity ==> r == bush.(regenTimer := 0.0)
    ensures |bush.food| < bush.capacity && bush.regenTimer + dt < p.foodRegenSeconds ==>
      r == bush.(regenTimer := bush.regenTimer + dt)
    ensures |bush.food| < bush.capacity && p.foodRegenSeconds <= bush.regenTimer + dt ==>
      && r.regenTimer == 0.0
      && r.food == bush.food + (if newItem.Some? then [newItem.value] else [])
    ensures r.(food := bush.food, regenTimer := bush.regenTimer) == bush
    ensures bush.food <= r.food && |r.food| <= |bush.food| + 1
    ensures |bush.food| <= bush.capacity ==> |r.food| <= bush.capacity
    ensures 0.0 <= bush.regenTimer && 0.0 <= dt && 0.0 < p.foodRegenSeconds ==>
      0.0 <= r.regenTimer < p.foodRegenSeconds
  {
    if |bush.food| >= bush.capacity then bush.(regenTimer := 0.0)
    else
      var timer := bush.regenTimer + dt;
      if timer >= p.foodRegenSeconds then
        var food := if newItem.Some? then bush.food + [newItem.value] else bush.food;
        bush.(regenTimer := 0.0, food := food)
      else bush.(regenTimer := timer)
  }

  /** `update_resources`: one regeneration step per bush, with one oracle
      answer per bush. */
  function UpdateResources(p: Config.Params, bushes: seq<FoodBush>, dt: real,
                           newItems: seq<Option<FoodItem>>): (r: seq<FoodBush>)
    requires |newItems| == |bushes|
    ensures |r| == |bushes|
    ensures forall i :: 0 <= i < |bushes| ==>
      r[i].(food := bushes[i].food, regenTimer := bushes[i].regenTimer) == bushes[i]
    ensures forall i :: 0 <= i < |bushes| ==>
      bushes[i].food <= r[i].food && |r[i].food| <= |bushes[i].food| + 1
    ensures forall i :: 0 <= i < |bushes| && |bushes[i].food| <= bushes[i].capacity ==>
      |r[i].food| <= bushes[i].capacity
    ensures forall i :: 0 <= i < |bushes| && bushes[i].capacity <= |bushes[i].food| ==>
      r[i] == bushes[i].(regenTimer := 0.0)
    ensures forall i :: (0 <= i < |bushes| && |bushes[i].food| < bushes[i].capacity
                         && bushes[i].regenTimer + dt < p.foodRegenSeconds) ==>
      r[i] == bushes[i].(regenTimer := bushes[i].regenTimer + dt)
    ensures forall i :: (0 <= i < |bushes| && |bushes[i].food| < bushes[i].capacity
                         && p.foodRegenSeconds <= bushes[i].regenTimer + dt) ==>
      && r[i].regenTimer == 0.0
      && r[i].food == bushes[i].food + (if newItems[i].Some? then [newItems[i].value] else [])
    ensures forall i :: 0 <= i < |bushes| && 0.0 <= bushes[i].regenTimer && 0.0 <= dt && 0.0 < p.foodRegenSeconds ==>
      0.0 <= r[i].regenTimer < p.foodRegenSeconds
  {
    seq(|bushes|, i requires 0 <= i < |bushes| => UpdateRegen(p, bushes[i], dt, newItems[i]))
  }

  /** Every bush holds at most its capacity and its regeneration timer lies
      in [0, FOOD_REGEN_SECONDS). */
  ghost predicate FieldOk(p: Config.Params, bushes: seq<FoodBush>)
  {
    forall i :: 0 <= i < |bushes| ==>
      && |bushes[i].food| <= bushes[i].capacity
      && 0.0 <= bushes[i].regenTimer < p.foodRegenSeconds
  }

  /** A regeneration step over the whole field keeps every bush within its
      capacity and every timer in range, whatever the oracle answers. */
  lemma {:induction false} UpdateResourcesKeepsFieldOk(p: Config.Params, bushes: seq<FoodBush>, dt: real,
                                                      newItems: seq<Option<FoodItem>>)
    requires |newItems| == |bushes|
    requires 0.0 <= dt && 0.0 < p.foodRegenSeconds
    requires FieldOk(p, bushes)
    ensures FieldOk(p, UpdateResources(p, bushes, dt, newItems))
  {
    var r := UpdateResources(p, bushes, dt, newItems);
    forall i | 0 <= i < |r|
      ensures |r[i].food| <= r[i].capacity && 0.0 <= r[i].regenTimer < p.foodRegenSeconds
    {
      assert r[i].capacity == bushes[i].capacity;
    }
  }

  /** `item` is what the oracle answered, to the stock `prefix`, on one of
      its first `calls` calls. */
  ghost predicate FromOracle(newItem: (seq<FoodItem>, nat) -> Option<FoodItem>,
                             prefix: seq<FoodItem>, item: FoodItem, calls: nat)
  {
    exists c: nat :: c < calls && newItem(prefix, c) == Some(item)
  }

  /** The stock after `c` generator calls starting from `start`: each call
      sees the stock so far and the call's number, and an item it returns
      is appended. */
  function Replay(start: seq<FoodItem>, newItem: (seq<FoodItem>, nat) -> Option<FoodItem>, c: nat): seq<FoodItem>
    decreases c
  {
    if c == 0 then start
    else
      var s := Replay(start, newItem, c - 1);
      var item := newItem(s, c - 1);
      if item.Some? then s + [item.value] else s
  }

  /** A generator that always answers adds one item per call. */
  lemma {:induction false} ReplayAlwaysSome(start: seq<FoodItem>, newItem: (seq<FoodItem>, nat) -> Option<FoodItem>, c: nat)
    requires forall s, k :: newItem(s, k).Some?
    ensures |Replay(start, newItem, c)| == |start| + c
    decreases c
  {
    if c > 0 {
      ReplayAlwaysSome(start, newItem, c - 1);
    }
  }

  /** `FoodBush.spawn_initial_food`: fill towards capacity, at most
      `SPAWN_SAFETY` oracle calls. The oracle sees the current stock and the
      number of the call. */
  method SpawnInitialFood(bush: FoodBush, newItem: (seq<FoodItem>, nat) -> Option<FoodItem>)
    returns (r: FoodBush, calls: nat)
    ensures calls <= SPAWN_SAFETY
    ensures r.(food := bush.food) == bush
    ensures bush.food <= r.food
    ensures |r.food| <= |bush.food| + calls
    ensures |bush.food| <= bush.capacity ==> |r.food| <= bush.capacity
    ensures bush.capacity <= |r.food| || calls == SPAWN_SAFETY
    ensures |bush.food| < bush.capacity ==> 0 < calls
    ensures forall j :: |bush.food| <= j < |r.food| ==> FromOracle(newItem, r.food[..j], r.food[j], calls)
    ensures r.food == Replay(bush.food, newItem, calls)
    ensures forall c: nat :: c < calls ==> |Replay(bush.food, newItem, c)| < bush.capacity
    ensures (forall s, k :: newItem(s, k).Some?) && |bush.food| <= bush.capacity <= |bush.food| + SPAWN_SAFETY ==>
      |r.food| == bush.capacity
  {
    var food := bush.food;
    var safety := SPAWN_SAFETY;
    calls := 0;
    while |food| < bush.capacity && safety > 0
      invariant calls + safety == SPAWN_SAFETY
      invariant bush.food <= food
      invariant |food| <= |bush.food| + calls
      invariant |bush.food| <= bush.capacity ==> |food| <= bush.capacity
      invariant |bush.food| < bush.capacity && calls == 0 ==> food == bush.food
      invariant forall j :: |bush.food| <= j < |food| ==> FromOracle(newItem, food[..j], food[j], calls)
      invariant food == Replay(bush.food, newItem, calls)
      invariant forall c: nat :: c < calls ==> |Replay(bush.food, newItem, c)| < bush.capacity
      decreases safety
    {
      var item := newItem(food, calls);
      var next := if item.Some? then food + [item.value] else food;
      forall j | |bush.food| <= j < |next|
        ensures FromOracle(newItem, next[..j], next[j], calls + 1)
      {
        if j < |food| {
          assert next[..j] == food[..j] && next[j] == food[j];
          assert FromOracle(newItem, food[..j], food[j], calls);
        } else {
          assert next[..j] == food;
          assert newItem(next[..j], calls) == Some(next[j]);
        }
      }
      food := next;
      safety := safety - 1;
      calls := calls + 1;
    }
    if forall s, k :: newItem(s, k).Some? {
      ReplayAlwaysSome(bush.food, newItem, calls);
    }
    r := bush.(food := food);
  }

  // ---------------------------------------------------------------------
  // Pond bounds
  // ---------------------------------------------------------------------

  function MaxOf(xs: seq<real>): (m: real)
    requires |xs| > 0
    ensures m in xs
    ensures forall j :: 0 <= j < |xs| ==> xs[j] <= m
  {
    if |xs| == 1 then xs[0] else Max(xs[0], MaxOf(xs[1..]))
  }

  function MinOf(xs: seq<real>): (m: real)
    requires |xs| > 0
    ensures m in xs
    ensures forall j :: 0 <= j < |xs| ==> m <= xs[j]
  {
    if |xs| == 1 then xs[0] else Min(xs[0], MinOf(xs[1..]))
  }

  lemma {:induction false} SumBounds(xs: seq<real>, lo: real, hi: real)
    requires forall j :: 0 <= j < |xs| ==> lo <= xs[j] <= hi
    ensures lo * |xs| as real <= Sum(xs) <= hi * |xs| as real
  {
    if |xs| > 0 {
      SumBounds(xs[1..], lo, hi);
      assert lo * |xs| as real == lo + lo * |xs[1..]| as real;
      assert hi * |xs| as real == hi + hi * |xs[1..]| as real;
    }
  }

  /** A quotient by a positive count lies between the bounds its numerator
      has per unit. */
  lemma DivBetween(s: real, n: real, lo: real, hi: real)
    requires 0.0 < n
    requires lo * n <= s <= hi * n
    ensures lo <= s / n <= hi
  {
    var q := s / n;
    assert q * n == s;
    MulSign(q - lo, n);
    MulSign(hi - q, n);
    assert (q - lo) * n == s - lo * n;
    assert (hi - q) * n == hi * n - s;
  }

  /** A mean of values in [lo, hi] lies in [lo, hi]. */
  lemma MeanWithin(xs: seq<real>, lo: real, hi: real)
    requires |xs| > 0
    requires forall j :: 0 <= j < |xs| ==> lo <= xs[j] <= hi
    ensures lo <= Sum(xs) / |xs| as real <= hi
  {
    SumBounds(xs, lo, hi);
    DivBetween(Sum(xs), |xs| as real, lo, hi);
  }

  /** A mean lies between the least and the greatest element. */
  lemma MeanBetween(xs: seq<real>)
    requires |xs| > 0
    ensures MinOf(xs) <= Sum(xs) / |xs| as real <= MaxOf(xs)
  {
    MeanWithin(xs, MinOf(xs), MaxOf(xs));
  }

  function CentreXs(circles: seq<Circle>): seq<real>
  {
    seq(|circles|, i requires 0 <= i < |circles| => circles[i].cx)
  }

  function CentreYs(circles: seq<Circle>): seq<real>
  {
    seq(|circles|, i requires 0 <= i < |circles| => circles[i].cy)
  }

  function Radii(circles: seq<Circle>): seq<real>
  {
    seq(|circles|, i requires 0 <= i < |circles| => circles[i].r)
  }

  /** The arithmetic mean lies between the least and the greatest
      element. */
  function Mean(xs: seq<real>): (m: real)
    requires |xs| > 0
    ensures MinOf(xs) <= m <= MaxOf(xs)
  {
    MeanBetween(xs);
    Sum(xs) / |xs| as real
  }

  /** Some element is at most the mean and some element at least it. */
  lemma MeanBracketed(xs: seq<real>)
    requires |xs| > 0
    ensures exists i :: 0 <= i < |xs| && xs[i] <= Mean(xs)
    ensures exists j :: 0 <= j < |xs| && Mean(xs) <= xs[j]
  {
    var lo := MinOf(xs);
    var hi := MaxOf(xs);
    var i :| 0 <= i < |xs| && xs[i] == lo;
    var j :| 0 <= j < |xs| && xs[j] == hi;
  }

  /** The mean centre lies within the box spanned by the circle centres. */
  lemma CentreInBox(cs: seq<Circle>)
    requires |cs| > 0
    ensures exists i :: 0 <= i < |cs| && cs[i].cx <= Mean(CentreXs(cs))
    ensures exists j :: 0 <= j < |cs| && Mean(CentreXs(cs)) <= cs[j].cx
    ensures exists i :: 0 <= i < |cs| && cs[i].cy <= Mean(CentreYs(cs))
    ensures exists j :: 0 <= j < |cs| && Mean(CentreYs(cs)) <= cs[j].cy
  {
    var xs := CentreXs(cs);
    var ys := CentreYs(cs);
    MeanBracketed(xs);
    MeanBracketed(ys);
    var i1 :| 0 <= i1 < |xs| && xs[i1] <= Mean(xs);
    var j1 :| 0 <= j1 < |xs| && Mean(xs) <= xs[j1];
    var i2 :| 0 <= i2 < |ys| && ys[i2] <= Mean(ys);
    var j2 :| 0 <= j2 < |ys| && Mean(ys) <= ys[j2];
    assert cs[i1].cx <= Mean(xs) && Mean(xs) <= cs[j1].cx;
    assert cs[i2].cy <= Mean(ys) && Mean(ys) <= cs[j2].cy;
  }

  /** The radius list of a pond has its maximum at some circle. */
  lemma RadiiMaximum(circles: seq<Circle>)
    requires |circles| > 0
    ensures forall j :: 0 <= j < |circles| ==> circles[j].r <= MaxOf(Radii(circles))
    ensures exists j :: 0 <= j < |circles| && circles[j].r == MaxOf(Radii(circles))
  {
    var rs := Radii(circles);
    assert forall j :: 0 <= j < |circles| ==> rs[j] == circles[j].r;
    var m := MaxOf(rs);
    var j :| 0 <= j < |rs| && rs[j] == m;
    assert circles[j].r == m;
  }

  /** `(cx, cy, r_max)` of a pond. */
  datatype Bounds = Bounds(cx: real, cy: real, rMax: real)

  /** `pond_bounds`: the mean of the circle centres and the largest radius.
      Python raises on a pond without circles, modelled as None. */
  function PondBounds(pond: Pond): (r: Option<Bounds>)
    ensures r.None? <==> |pond.circles| == 0
    ensures r.Some? ==>
      && r.value.cx == Mean(CentreXs(pond.circles))
      && r.value.cy == Mean(CentreYs(pond.circles))
    ensures r.Some? ==>
      && (exists i :: 0 <= i < |pond.circles| && pond.circles[i].cx <= r.value.cx)
      && (exists j :: 0 <= j < |pond.circles| && r.value.cx <= pond.circles[j].cx)
      && (exists i :: 0 <= i < |pond.circles| && pond.circles[i].cy <= r.value.cy)
      && (exists j :: 0 <= j < |pond.circles| && r.value.cy <= pond.circles[j].cy)
    ensures r.Some? ==>
      && (forall j :: 0 <= j < |pond.circles| ==> pond.circles[j].r <= r.value.rMax)
      && (exists j :: 0 <= j < |pond.circles| && pond.circles[j].r == r.value.rMax)
  {
    var cs := pond.circles;
    if |cs| == 0 then None
    else
      RadiiMaximum(cs);
      CentreInBox(cs);
      Some(Bounds(Mean(CentreXs(cs)), Mean(CentreYs(cs)), MaxOf(Radii(cs))))
  }
}

=== FILE: simulation.dfy ===
/** The per-tick update of one agent (simulation.py): the eat pause, the
    drink state with its sip loop, the proposed move, starting to drink,
    eating from or bouncing off bushes, bouncing off the pond, the screen
    margins, and the speed cap applied along the way. */
module Simulation {
  import opened Optional
  import opened Utils
  import opened Geometry
  import opened Draws
  import opened Config
  import opened Agents
  import opened Resources

  const INTERACT_COOLDOWN: real := 0.8
  const MAX_SPEED: real := 3.5
  const BOUNCE_DAMP: real := 0.92
  /** Contact tolerance for the pond, and for the bushes. */
  const POND_EPS: real := 6.0
  const BUSH_EPS: real := 4.0
  /** Velocities are per frame at 60 frames per second. */
  const FRAMES_PER_SECOND: real := 60.0
  const NUDGE: real := 0.6
  const NUDGE_SIGNS: seq<int> := [-1, 1]

  // ---------------------------------------------------------------------
  // Velocity guards
  // ---------------------------------------------------------------------

  /** A division by a larger positive number lands in (0, 1). */
  lemma RatioBelowOne(a: real, b: real)
    requires 0.0 < a < b
    ensures 0.0 < a / b < 1.0
  {
    DivSign(a, b);
  }

  /** `_clamp_speed`: a velocity faster than `MAX_SPEED` is scaled down to
      it, keeping its direction. The non-finite branch is vacuous over the
      reals. */
  function ClampSpeed(sqrt: real -> real, v: Vec): (r: Vec)
    ensures Speed(sqrt, v) <= MAX_SPEED ==> r == v
    ensures exists k :: 0.0 < k <= 1.0 && r == Scale(v, k)
    ensures IsSqrt(sqrt) ==> Speed(sqrt, r) == Min(Speed(sqrt, v), MAX_SPEED)
  {
    var speed := Speed(sqrt, v);
    if speed > MAX_SPEED then
      RatioBelowOne(MAX_SPEED, speed);
      CapScaled(sqrt, v);
      Scale(v, MAX_SPEED / speed)
    else
      assert v == Scale(v, 1.0);
      v
  }

  /** Scaling by `MAX_SPEED / speed` lands exactly on the cap. */
  lemma CapScaled(sqrt: real -> real, v: Vec)
    ensures IsSqrt(sqrt) && MAX_SPEED < Speed(sqrt, v) ==>
      Speed(sqrt, Scale(v, MAX_SPEED / Speed(sqrt, v))) == MAX_SPEED
  {
    var speed := Speed(sqrt, v);
    if IsSqrt(sqrt) && MAX_SPEED < speed {
      HypotNonNegative(sqrt, v.x, v.y);
      var s := MAX_SPEED / speed;
      assert s * speed == MAX_SPEED;
      ScaledToLength(v, speed, s, MAX_SPEED);
      SpeedOfLength(sqrt, Scale(v, s), MAX_SPEED);
    }
  }

  lemma ScaledToLength(v: Vec, len: real, s: real, target: real)
    requires SqNorm(v) == len * len
    requires s * len == target
    ensures SqNorm(Scale(v, s)) == target * target
  {
    ScaledSqNorm(v.x, v.y, s);
    assert (len * len) * (s * s) == (s * len) * (s * len);
  }

  /** `_nudge_velocity`: each component moves by 0.6 in a random
      direction. */
  function Nudge(v: Vec, signX: nat, signY: nat): (r: Vec)
    ensures r.x == v.x - NUDGE || r.x == v.x + NUDGE
    ensures r.y == v.y - NUDGE || r.y == v.y + NUDGE
  {
    Vec(v.x + Choice(NUDGE_SIGNS, signX) as real * NUDGE,
        v.y + Choice(NUDGE_SIGNS, signY) as real * NUDGE)
  }

  /** Both nudge directions on both axes are reachable. */
  lemma NudgeCovers(v: Vec)
    ensures Nudge(v, 0, 0) == Vec(v.x - NUDGE, v.y - NUDGE)
    ensures Nudge(v, 1, 1) == Vec(v.x + NUDGE, v.y + NUDGE)
    ensures Nudge(v, 0, 1) == Vec(v.x - NUDGE, v.y + NUDGE)
    ensures Nudge(v, 1, 0) == Vec(v.x + NUDGE, v.y - NUDGE)
  {
    ChoiceCovers(NUDGE_SIGNS, 0);
    ChoiceCovers(NUDGE_SIGNS, 1);
  }

  function Velocity(a: Agent): Vec
  {
    Vec(a.vx, a.vy)
  }

  function WithVelocity(a: Agent, v: Vec): Agent
  {
    a.(vx := v.x, vy := v.y)
  }

  // ---------------------------------------------------------------------
  // Sip loop
  // ---------------------------------------------------------------------

  /** Subtracting the divisor lowers the integer quotient by one. */
  lemma FloorStep(interval: real, timer: real)
    requires 0.0 < interval <= timer
    ensures 1 <= (timer / interval).Floor
    ensures ((timer - interval) / interval).Floor == (timer / interval).Floor - 1
  {
    var q := timer / interval;
    var q' := (timer - interval) / interval;
    var d := q' - q + 1.0;
    assert d * interval == 0.0;
    MulSign(d, interval);
    assert q' == q - 1.0;
    assert (q - 1.0) * interval == timer - interval;
    MulSign(q - 1.0, interval);
  }

  /** `while drink_timer >= DRINK_INTERVAL`: each round takes one interval
      off the timer and one sip off the thirst, which stops at 0. Python
      loops forever on a non-positive interval, hence the precondition. */
  function SipLoop(timer: real, thirst: real, interval: real, amount: real): (r: (real, real))
    requires 0.0 < interval
    ensures r.0 < interval
    ensures timer < interval ==> r == (timer, thirst)
    ensures 0.0 <= timer ==> 0.0 <= r.0
    ensures r.0 <= timer
    ensures 0.0 <= amount && 0.0 <= thirst ==> r.1 <= thirst
    ensures 0.0 <= thirst || interval <= timer ==> 0.0 <= r.1
    decreases if timer < interval then 0 else (timer / interval).Floor
  {
    if timer >= interval then
      FloorStep(interval, timer);
      SipLoop(timer - interval, Max(0.0, thirst - amount), interval, amount)
    else (timer, thirst)
  }

  /** How many rounds the sip loop runs. */
  function SipCount(timer: real, interval: real): (n: nat)
    requires 0.0 < interval
    decreases if timer < interval then 0 else (timer / interval).Floor
  {
    if timer >= interval then
      FloorStep(interval, timer);
      1 + SipCount(timer - interval, interval)
    else 0
  }

  /** The timer in closed form: `n` rounds take `n` intervals off it. */
  lemma {:induction false} SipTimerClosedForm(timer: real, thirst: real, interval: real, amount: real)
    requires 0.0 < interval
    ensures SipLoop(timer, thirst, interval, amount).0 == timer - SipCount(timer, interval) as real * interval
    decreases if timer < interval then 0 else (timer / interval).Floor
  {
    if timer >= interval {
      FloorStep(interval, timer);
      SipTimerClosedForm(timer - interval, Max(0.0, thirst - amount), interval, amount);
      var m := SipCount(timer - interval, interval);
      assert (m + 1) as real * interval == interval + m as real * interval;
    }
  }

  /** `n` sips, each floored at 0. */
  function Sips(thirst: real, amount: real, n: nat): real
    decreases n
  {
    if n == 0 then thirst else Sips(Max(0.0, thirst - amount), amount, n - 1)
  }

  /** The thirst the loop leaves is that of `SipCount` sips. */
  lemma {:induction false} SipThirstBySips(timer: real, thirst: real, interval: real, amount: real)
    requires 0.0 < interval
    ensures SipLoop(timer, thirst, interval, amount).1 == Sips(thirst, amount, SipCount(timer, interval))
    decreases if timer < interval then 0 else (timer / interval).Floor
  {
    if timer >= interval {
      FloorStep(interval, timer);
      SipThirstBySips(timer - interval, Max(0.0, thirst - amount), interval, amount);
    }
  }

  /** `n > 0` sips of a non-negative amount take `n` amounts off, floored
      at 0. */
  lemma {:induction false} SipsClosedForm(thirst: real, amount: real, n: nat)
    requires 0.0 <= amount
    ensures Sips(thirst, amount, n) == if n == 0 then thirst else Max(0.0, thirst - n as real * amount)
    decreases n
  {
    if n > 0 {
      var m := n - 1;
      SipsClosedForm(Max(0.0, thirst - amount), amount, m);
      if m > 0 {
        var k := m as real * amount;
        MulNonNegative(m as real, amount);
        assert n as real * amount == amount + k;
        MaxShift(thirst, amount, k);
      }
    }
  }

  lemma MaxShift(t: real, a: real, k: real)
    requires 0.0 <= k
    ensures Max(0.0, Max(0.0, t - a) - k) == Max(0.0, t - a - k)
  {
  }

  /** The number of rounds is the integer part of `timer / interval`. */
  lemma {:induction false} SipCountIsFloor(timer: real, interval: real)
    requires 0.0 < interval && 0.0 <= timer
    ensures SipCount(timer, interval) == (timer / interval).Floor
    decreases if timer < interval then 0 else (timer / interval).Floor
  {
    if timer >= interval {
      FloorStep(interval, timer);
      SipCountIsFloor(timer - interval, interval);
    } else {
      DivSign(timer, interval);
    }
  }

  // ---------------------------------------------------------------------
  // Screen margins
  // ---------------------------------------------------------------------

  /** One axis of the screen-bounds step: a coordinate outside [lo, hi] is
      set to the margin it crossed and the velocity component negated. */
  function BoundAxis(n: real, v: real, lo: real, hi: real): (r: (real, real))
    ensures n < lo ==> r == (lo, -v)
    ensures lo <= n && hi < n ==> r == (hi, -v)
    ensures lo <= n <= hi ==> r == (n, v)
    ensures lo <= hi ==> lo <= r.0 <= hi
    ensures lo <= hi ==> (r.1 == v <==> lo <= n <= hi || v == 0.0)
    ensures lo <= hi ==> (r.1 == -v <==> n < lo || hi < n || v == 0.0)
  {
    if n < lo then (lo, -v)
    else if n > hi then (hi, -v)
    else (n, v)
  }

  lemma BoundAxisIdempotent(n: real, v: real, lo: real, hi: real)
    requires lo <= hi
    ensures BoundAxis(BoundAxis(n, v, lo, hi).0, v, lo, hi) == (BoundAxis(n, v, lo, hi).0, v)
  {
  }

  // ---------------------------------------------------------------------
  // One tick
  // ---------------------------------------------------------------------

  /** What `update_agent` leaves behind: its boolean result (does the agent
      still exist), the agent, and the bushes. */
  datatype Tick = Tick(alive: bool, agent: Agent, bushes: seq<FoodBush>)

  /** The random draws a tick may consume: the two nudge signs and the food
      index. */
  datatype Dice = Dice(nudgeX: nat, nudgeY: nat, pick: nat)

  /** The guards at the top of a living tick: the speed cap, then the
      cooldown countdown. `_safe_pos` is the identity over the reals. */
  function Settle(sqrt: real -> real, a: Agent, dt: real): (r: Agent)
    ensures r.(vx := a.vx, vy := a.vy, interactCooldown := a.interactCooldown) == a
    ensures Velocity(r) == ClampSpeed(sqrt, Velocity(a))
    ensures 0.0 < a.interactCooldown ==> r.interactCooldown == Max(0.0, a.interactCooldown - dt)
    ensures a.interactCooldown <= 0.0 ==> r.interactCooldown == a.interactCooldown
    ensures 0.0 <= a.interactCooldown ==> 0.0 <= r.interactCooldown
    ensures 0.0 <= dt ==> r.interactCooldown <= a.interactCooldown
  {
    var cd := if a.interactCooldown > 0.0 then Max(0.0, a.interactCooldown - dt) else a.interactCooldown;
    WithVelocity(a, ClampSpeed(sqrt, Velocity(a))).(interactCooldown := cd)
  }

  /** Nudge the velocity, then cap it. */
  function Nudged(sqrt: real -> real, a: Agent, dice: Dice): (r: Agent)
    ensures r.(vx := a.vx, vy := a.vy) == a
    ensures exists k :: 0.0 < k <= 1.0 && Velocity(r) == Scale(Nudge(Velocity(a), dice.nudgeX, dice.nudgeY), k)
    ensures IsSqrt(sqrt) ==>
      Speed(sqrt, Velocity(r)) == Min(Speed(sqrt, Nudge(Velocity(a), dice.nudgeX, dice.nudgeY)), MAX_SPEED)
    ensures IsSqrt(sqrt) ==> Speed(sqrt, Velocity(r)) <= MAX_SPEED
  {
    WithVelocity(a, ClampSpeed(sqrt, Nudge(Velocity(a), dice.nudgeX, dice.nudgeY)))
  }

  /** The drink state: release (back to wandering, with a cooldown and a
      nudge) when the pond is out of reach or thirst is low enough;
      otherwise sip on the timer. The position never moves. */
  function DrinkTick(p: Params, sqrt: real -> real, a: Agent, dt: real, pond: Pond, dice: Dice): (r: Agent)
    requires p.Valid()
    ensures r.x == a.x && r.y == a.y
    ensures r.hunger == a.hunger && r.eatPause == a.eatPause
    ensures r.(vx := a.vx, vy := a.vy, action := a.action, drinkTimer := a.drinkTimer,
               interactCooldown := a.interactCooldown, thirst := a.thirst) == a
    ensures TouchPond(sqrt, a.x, a.y, AGENT_RADIUS, pond, POND_EPS).None? || a.thirst <= p.thirstOk ==>
      && r.action == Wander && r.drinkTimer == 0.0 && r.interactCooldown == INTERACT_COOLDOWN
      && r.thirst == a.thirst && Velocity(r) == Velocity(Nudged(sqrt, a, dice))
    ensures TouchPond(sqrt, a.x, a.y, AGENT_RADIUS, pond, POND_EPS).Some? && p.thirstOk < a.thirst ==>
      && r == SipStep(p, a, dt)
      && r.action == a.action && Velocity(r) == Velocity(a) && r.interactCooldown == a.interactCooldown
      && r.drinkTimer < p.drinkInterval
      && (0.0 <= a.drinkTimer + dt ==> 0.0 <= r.drinkTimer)
      && (0.0 <= p.drinkAmount && 0.0 <= a.thirst ==> r.thirst <= a.thirst)
      && (0.0 <= a.thirst ==> 0.0 <= r.thirst)
    ensures IsSqrt(sqrt) && Speed(sqrt, Velocity(a)) <= MAX_SPEED ==> Speed(sqrt, Velocity(r)) <= MAX_SPEED
    ensures 0.0 <= dt && TickInv(p, a) ==> TickInv(p, r)
  {
    var touching := TouchPond(sqrt, a.x, a.y, AGENT_RADIUS, pond, POND_EPS);
    if touching.None? || a.thirst <= p.thirstOk then
      Nudged(sqrt, a.(action := Wander, drinkTimer := 0.0, interactCooldown := INTERACT_COOLDOWN), dice)
    else
      SipStep(p, a, dt)
  }

  /** One frame of sipping: the timer gains `dt` and loses one interval
      per sip, and each sip takes the drink amount off the thirst, floored
      at 0; nothing else changes. */
  function SipStep(p: Params, a: Agent, dt: real): (r: Agent)
    requires p.Valid()
    ensures r == a.(drinkTimer := r.drinkTimer, thirst := r.thirst)
    ensures var n := SipCount(a.drinkTimer + dt, p.drinkInterval);
      && r.thirst == Sips(a.thirst, p.drinkAmount, n)
      && r.drinkTimer == a.drinkTimer + dt - n as real * p.drinkInterval
    ensures r.drinkTimer < p.drinkInterval
    ensures 0.0 <= a.drinkTimer + dt ==> 0.0 <= r.drinkTimer
    ensures 0.0 <= p.drinkAmount && 0.0 <= a.thirst ==> r.thirst <= a.thirst
    ensures 0.0 <= a.thirst ==> 0.0 <= r.thirst
  {
    var sip := SipLoop(a.drinkTimer + dt, a.thirst, p.drinkInterval, p.drinkAmount);
    SipTimerClosedForm(a.drinkTimer + dt, a.thirst, p.drinkInterval, p.drinkAmount);
    SipThirstBySips(a.drinkTimer + dt, a.thirst, p.drinkInterval, p.drinkAmount);
    a.(drinkTimer := sip.0, thirst := sip.1)
  }

  /** Where the agent would move this tick: velocities are per frame at 60
      frames per second, scaled by the movement multiplier. */
  function ProposedMove(a: Agent, mult: real, dt: real): (n: Vec)
    ensures Vec(n.x - a.x, n.y - a.y) == Scale(Velocity(a), mult * (FRAMES_PER_SECOND * dt))
    ensures mult == 0.0 || dt == 0.0 ==> n == Vec(a.x, a.y)
  {
    var scale := FRAMES_PER_SECOND * dt;
    Vec(a.x + a.vx * mult * scale, a.y + a.vy * mult * scale)
  }

  /** The proposed move covers the agent's speed times the multiplier times
      the number of 60 Hz frames in `dt`. */
  lemma ProposedMoveDistance(sqrt: real -> real, a: Agent, mult: real, dt: real)
    requires IsSqrt(sqrt)
    requires 0.0 <= mult && 0.0 <= dt
    ensures var n := ProposedMove(a, mult, dt);
      Hypot(sqrt, n.x - a.x, n.y - a.y) == Speed(sqrt, Velocity(a)) * (mult * (FRAMES_PER_SECOND * dt))
  {
    var v := Velocity(a);
    var s := mult * (FRAMES_PER_SECOND * dt);
    MulNonNegative(mult, FRAMES_PER_SECOND * dt);
    var speed := Speed(sqrt, v);
    HypotNonNegative(sqrt, v.x, v.y);
    MulNonNegative(speed, s);
    ScaledSqNorm(v.x, v.y, s);
    assert (speed * s) * (speed * s) == (speed * speed) * (s * s);
    SpeedOfLength(sqrt, Scale(v, s), speed * s);
  }

  /** Ready and thirsty enough to drink, with the proposed position at the
      pond's rim. */
  predicate WillDrink(p: Params, sqrt: real -> real, a: Agent, n: Vec, pond: Pond)
  {
    && a.interactCooldown <= 0.0
    && a.thirst >= p.thirstSeek
    && TouchPond(sqrt, n.x, n.y, AGENT_RADIUS, pond, POND_EPS).Some?
  }

  /** Ready and hungry enough to eat. */
  predicate Hungry(p: Params, a: Agent)
  {
    a.interactCooldown <= 0.0 && a.hunger >= p.hungerSeek
  }

  /** What meeting one bush does to a wandering agent at the proposed
      position `n`. */
  datatype Meet = Pass | Eats(bush: FoodBush) | Hits(hit: Hit)

  /** One pass of the bush loop: out of contact, pass; in contact and
      hungry with food left, eat an item; otherwise bounce if the circles
      overlap and pass if not. On the not-eating path the source asks for
      the same collision twice; both answers agree, so it is asked once
      here. */
  function MeetBush(p: Params, sqrt: real -> real, a: Agent, n: Vec, b: FoodBush, pick: nat): (r: Meet)
    ensures r.Pass? <==>
      || TouchBush(sqrt, n.x, n.y, AGENT_RADIUS, b, BUSH_EPS).None?
      || (!(Hungry(p, a) && |b.food| > 0) && CollideWithBush(sqrt, n.x, n.y, AGENT_RADIUS, b).None?)
    ensures r.Eats? ==>
      && TouchBush(sqrt, n.x, n.y, AGENT_RADIUS, b, BUSH_EPS).Some?
      && Hungry(p, a) && |b.food| > 0
      && RemovedOneAt(b, r.bush, pick % |b.food|)
    ensures r.Hits? ==>
      && TouchBush(sqrt, n.x, n.y, AGENT_RADIUS, b, BUSH_EPS).Some?
      && !(Hungry(p, a) && |b.food| > 0)
      && CollideWithBush(sqrt, n.x, n.y, AGENT_RADIUS, b) == Some(r.hit)
  {
    if TouchBush(sqrt, n.x, n.y, AGENT_RADIUS, b, BUSH_EPS).None? then Pass
    else
      var picked := if Hungry(p, a) then PickFoodFromBush(b, pick) else (false, b);
      if picked.0 then Eats(picked.1)
      else
        var hit := CollideWithBush(sqrt, n.x, n.y, AGENT_RADIUS, b);
        if hit.Some? then Hits(hit.value) else Pass
  }

  /** How the bush loop ends: past every bush, or stopped at bush `index`
      by eating from it or bouncing off it. */
  datatype BushEvent = PassedAll | Stopped(index: nat, meet: Meet)

  /** The bush loop from bush `i` on, given what meeting each bush does:
      the first bush that is not passed decides the tick. */
  function BushScan(meet: FoodBush -> Meet, bushes: seq<FoodBush>, i: nat): (e: BushEvent)
    requires i <= |bushes|
    ensures e.PassedAll? <==> forall j :: i <= j < |bushes| ==> meet(bushes[j]).Pass?
    ensures e.Stopped? ==>
      && i <= e.index < |bushes|
      && (forall j :: i <= j < e.index ==> meet(bushes[j]).Pass?)
      && e.meet == meet(bushes[e.index])
      && !e.meet.Pass?
    decreases |bushes| - i
  {
    if i == |bushes| then PassedAll
    else
      var m := meet(bushes[i]);
      if m.Pass? then BushScan(meet, bushes, i + 1)
      else Stopped(i, m)
  }

  /** The bush loop of a wandering agent at the proposed position `n`. */
  function MeetFor(p: Params, sqrt: real -> real, a: Agent, n: Vec, pick: nat): FoodBush -> Meet
  {
    (b: FoodBush) => MeetBush(p, sqrt, a, n, b, pick)
  }

  /** Eating: hunger drops by the eat amount (not below 0), the bite pause
      and the cooldown start, and the velocity is nudged. */
  function Eat(p: Params, sqrt: real -> real, a: Agent, dice: Dice): (r: Agent)
    ensures r.x == a.x && r.y == a.y && r.action == a.action
    ensures r.hunger == Max(0.0, a.hunger - p.eatAmount)
    ensures r.eatPause == p.eatPause && r.interactCooldown == INTERACT_COOLDOWN
    ensures Velocity(r) == Velocity(Nudged(sqrt, a, dice))
    ensures r.(vx := a.vx, vy := a.vy, hunger := a.hunger, eatPause := a.eatPause,
               interactCooldown := a.interactCooldown) == a
    ensures IsSqrt(sqrt) ==> Speed(sqrt, Velocity(r)) <= MAX_SPEED
  {
    Nudged(sqrt, a.(hunger := Max(0.0, a.hunger - p.eatAmount), eatPause := p.eatPause,
                    interactCooldown := INTERACT_COOLDOWN), dice)
  }

  /** `_apply_bounce`: bounce from the agent's current position, with the
      distance and overlap measured at the proposed one, then damp by
      exactly `BOUNCE_DAMP` and cap the velocity. When the current position
      is the circle's centre but the distance is not zero the normal is the
      zero vector and the velocity is only damped and capped. */
  function ApplyBounce(sqrt: real -> real, a: Agent, hit: Hit): (r: Agent)
    ensures r.(x := a.x, y := a.y, vx := a.vx, vy := a.vy) == a
    ensures PushedAlong(a.x, a.y, Motion(r.x, r.y, r.vx, r.vy),
                        BounceNormal(a.x, a.y, hit.circle.cx, hit.circle.cy, hit.dist), hit.overlap + 1.0)
    ensures exists w: Vec, k: real ::
      && 0.0 < k <= BOUNCE_DAMP && Velocity(r) == Scale(w, k)
      && Reflected(Velocity(a), w, BounceNormal(a.x, a.y, hit.circle.cx, hit.circle.cy, hit.dist))
    ensures exists w: Vec ::
      && Reflected(Velocity(a), w, BounceNormal(a.x, a.y, hit.circle.cx, hit.circle.cy, hit.dist))
      && Velocity(r) == ClampSpeed(sqrt, Scale(w, BOUNCE_DAMP))
    ensures BounceNormal(a.x, a.y, hit.circle.cx, hit.circle.cy, hit.dist) == Vec(0.0, 0.0) ==>
      Velocity(r) == ClampSpeed(sqrt, Scale(Velocity(a), BOUNCE_DAMP))
    ensures IsSqrt(sqrt) ==> Speed(sqrt, Velocity(r)) <= MAX_SPEED
  {
    var c := hit.circle;
    var m := BounceOffCircle(a.x, a.y, a.vx, a.vy, c.cx, c.cy, c.r, hit.dist, hit.overlap);
    var w := Vec(m.vx, m.vy);
    var v := ClampSpeed(sqrt, Scale(w, BOUNCE_DAMP));
    var k :| 0.0 < k <= 1.0 && v == Scale(Scale(w, BOUNCE_DAMP), k);
    DampedScale(w, k);
    a.(x := m.x, y := m.y, vx := v.x, vy := v.y)
  }

  /** Damping and then scaling by `k` in (0, 1] is one scaling by a factor
      in (0, BOUNCE_DAMP]. */
  lemma DampedScale(w: Vec, k: real)
    requires 0.0 < k <= 1.0
    ensures 0.0 < BOUNCE_DAMP * k <= BOUNCE_DAMP
    ensures Scale(Scale(w, BOUNCE_DAMP), k) == Scale(w, BOUNCE_DAMP * k)
  {
    MulBetween(BOUNCE_DAMP, k);
  }

  /** The screen-bounds step and the final commit of the proposed
      position, followed by the speed cap. */
  function MoveWithin(sqrt: real -> real, a: Agent, n: Vec): (r: Agent)
    ensures AGENT_RADIUS <= r.x <= WIDTH - AGENT_RADIUS
    ensures AGENT_RADIUS <= r.y <= HEIGHT - AGENT_RADIUS
    ensures AGENT_RADIUS <= n.x <= WIDTH - AGENT_RADIUS ==> r.x == n.x
    ensures AGENT_RADIUS <= n.y <= HEIGHT - AGENT_RADIUS ==> r.y == n.y
    ensures n.x < AGENT_RADIUS ==> r.x == AGENT_RADIUS
    ensures WIDTH - AGENT_RADIUS < n.x ==> r.x == WIDTH - AGENT_RADIUS
    ensures n.y < AGENT_RADIUS ==> r.y == AGENT_RADIUS
    ensures HEIGHT - AGENT_RADIUS < n.y ==> r.y == HEIGHT - AGENT_RADIUS
    ensures var onX := BoundAxis(n.x, a.vx, AGENT_RADIUS, WIDTH - AGENT_RADIUS);
      var onY := BoundAxis(n.y, a.vy, AGENT_RADIUS, HEIGHT - AGENT_RADIUS);
      Velocity(r) == ClampSpeed(sqrt, Vec(onX.1, onY.1))
    ensures r.(x := a.x, y := a.y, vx := a.vx, vy := a.vy) == a
    ensures IsSqrt(sqrt) ==> Speed(sqrt, Velocity(r)) <= MAX_SPEED
  {
    var onX := BoundAxis(n.x, a.vx, AGENT_RADIUS, WIDTH - AGENT_RADIUS);
    var onY := BoundAxis(n.y, a.vy, AGENT_RADIUS, HEIGHT - AGENT_RADIUS);
    WithVelocity(a.(x := onX.0, y := onY.0), ClampSpeed(sqrt, Vec(onX.1, onY.1)))
  }

  /** `bushes` with bush `i` replaced by one that lost exactly one item. */
  ghost predicate OneBushEaten(bushes: seq<FoodBush>, after: seq<FoodBush>)
  {
    |after| == |bushes| && exists i :: 0 <= i < |bushes| && after == bushes[i := after[i]] && RemovedOne(bushes[i], after[i])
  }

  /** Steps 4 to 6 of a tick at the proposed position `n`: eat from or
      bounce off the first bush that stops the agent, else bounce off the
      pond, else move within the screen. */
  function Interact(p: Params, sqrt: real -> real, a: Agent, n: Vec,
                    pond: Pond, bushes: seq<FoodBush>, dice: Dice): (t: Tick)
    ensures t.alive
    ensures t.agent.(x := a.x, y := a.y, vx := a.vx, vy := a.vy, hunger := a.hunger,
                     eatPause := a.eatPause, interactCooldown := a.interactCooldown) == a
    ensures |t.bushes| == |bushes|
    ensures t.bushes == bushes || OneBushEaten(bushes, t.bushes)
    ensures t.bushes != bushes ==>
      && Hungry(p, a)
      && t.agent.x == a.x && t.agent.y == a.y
      && t.agent.hunger == Max(0.0, a.hunger - p.eatAmount)
      && t.agent.eatPause == p.eatPause && t.agent.interactCooldown == INTERACT_COOLDOWN
    ensures t.bushes == bushes ==>
      t.agent.hunger == a.hunger && t.agent.eatPause == a.eatPause && t.agent.interactCooldown == a.interactCooldown
    ensures var e := BushScan(MeetFor(p, sqrt, a, n, dice.pick), bushes, 0);
      e.Stopped? && e.meet.Eats? ==>
        t.agent == Eat(p, sqrt, a, dice) && t.bushes == bushes[e.index := e.meet.bush]
    ensures var e := BushScan(MeetFor(p, sqrt, a, n, dice.pick), bushes, 0);
      e.Stopped? && e.meet.Hits? ==>
        t.agent == ApplyBounce(sqrt, a, e.meet.hit) && t.bushes == bushes
    ensures var hit := CollideWithPond(sqrt, n.x, n.y, AGENT_RADIUS, pond);
      BushScan(MeetFor(p, sqrt, a, n, dice.pick), bushes, 0).PassedAll? && hit.Some? ==>
        t.agent == ApplyBounce(sqrt, a, hit.value) && t.bushes == bushes
    ensures BushScan(MeetFor(p, sqrt, a, n, dice.pick), bushes, 0).PassedAll? &&
            CollideWithPond(sqrt, n.x, n.y, AGENT_RADIUS, pond).None? ==>
      t.agent == MoveWithin(sqrt, a, n) && t.bushes == bushes
    ensures IsSqrt(sqrt) ==> Speed(sqrt, Velocity(t.agent)) <= MAX_SPEED
  {
    var e := BushScan(MeetFor(p, sqrt, a, n, dice.pick), bushes, 0);
    if e.Stopped? && e.meet.Eats? then
      var after := bushes[e.index := e.meet.bush];
      assert RemovedOne(bushes[e.index], after[e.index]);
      assert |after[e.index].food| < |bushes[e.index].food|;
      Tick(true, Eat(p, sqrt, a, dice), after)
    else if e.Stopped? && e.meet.Hits? then
      Tick(true, ApplyBounce(sqrt, a, e.meet.hit), bushes)
    else
      var hit := CollideWithPond(sqrt, n.x, n.y, AGENT_RADIUS, pond);
      if hit.Some? then Tick(true, ApplyBounce(sqrt, a, hit.value), bushes)
      else Tick(true, MoveWithin(sqrt, a, n), bushes)
  }

  /** Steps 2 to 6 of a tick for a wandering agent: propose a move; start
      drinking (staying put) if ready, thirsty and at the pond's rim;
      otherwise interact at the proposed position. */
  function WanderTick(p: Params, sqrt: real -> real, mult: real, a: Agent, dt: real,
                      pond: Pond, bushes: seq<FoodBush>, dice: Dice): (t: Tick)
    ensures t.alive
    ensures var n := ProposedMove(a, mult, dt);
      WillDrink(p, sqrt, a, n, pond) ==>
        t.agent == a.(action := Drink, drinkTimer := 0.0) && t.bushes == bushes
    ensures var n := ProposedMove(a, mult, dt);
      !WillDrink(p, sqrt, a, n, pond) ==> t == Interact(p, sqrt, a, n, pond, bushes, dice)
  {
    var n := ProposedMove(a, mult, dt);
    if WillDrink(p, sqrt, a, n, pond) then
      Tick(true, a.(action := Drink, drinkTimer := 0.0), bushes)
    else
      Interact(p, sqrt, a, n, pond, bushes, dice)
  }

  /** `update_agent`: one frame for one agent. The result's `alive` is the
      function's boolean result; `mult` is the value of
      `movement_multiplier` for the agent. */
  function UpdateAgent(p: Params, sqrt: real -> real, mult: real, a: Agent, dt: real,
                       pond: Pond, bushes: seq<FoodBush>, dice: Dice): (t: Tick)
    requires p.Valid()
    ensures t.alive == UpdateInternalState(a, dt).alive
    ensures !t.alive ==> t.agent == UpdateInternalState(a, dt) && t.bushes == bushes
    ensures t.agent.id == a.id
    ensures |t.bushes| == |bushes|
    ensures t.bushes == bushes || OneBushEaten(bushes, t.bushes)
    ensures IsSqrt(sqrt) && t.alive ==> Speed(sqrt, Velocity(t.agent)) <= MAX_SPEED
  {
    var b := UpdateInternalState(a, dt);
    if !b.alive then Tick(false, b, bushes)
    else
      var c := Settle(sqrt, b, dt);
      if c.eatPause > 0.0 then
        Tick(true, c.(eatPause := Max(0.0, c.eatPause - dt)), bushes)
      else if c.action == Drink then
        Tick(true, DrinkTick(p, sqrt, c, dt, pond, dice), bushes)
      else
        WanderTick(p, sqrt, mult, c, dt, pond, bushes, dice)
  }

  // ---------------------------------------------------------------------
  // Properties of a tick
  // ---------------------------------------------------------------------

  /** A dead agent is reported dead and nothing changes. */
  lemma DeadAgentIsInert(p: Params, sqrt: real -> real, mult: real, a: Agent, dt: real,
                         pond: Pond, bushes: seq<FoodBush>, dice: Dice)
    requires p.Valid()
    requires !a.alive
    ensures UpdateAgent(p, sqrt, mult, a, dt, pond, bushes, dice) == Tick(false, a, bushes)
  {
  }

  /** While the bite pause runs a living agent stays where it is, keeps its
      action and touches no bush; the pause counts down. */
  lemma EatPauseFreezes(p: Params, sqrt: real -> real, mult: real, a: Agent, dt: real,
                        pond: Pond, bushes: seq<FoodBush>, dice: Dice)
    requires p.Valid()
    requires UpdateInternalState(a, dt).alive && 0.0 < a.eatPause
    ensures var t := UpdateAgent(p, sqrt, mult, a, dt, pond, bushes, dice);
      && t.alive && t.bushes == bushes
      && t.agent.x == a.x && t.agent.y == a.y && t.agent.action == a.action
      && t.agent.eatPause == Max(0.0, a.eatPause - dt)
  {
  }

  /** A drinking agent never moves or eats. It returns to wandering, with a
      fresh cooldown, exactly when the pond is out of reach or its thirst
      is down to the "ok" threshold; otherwise it sips, its timer staying
      below the interval and its thirst not rising. */
  lemma DrinkingStaysPut(p: Params, sqrt: real -> real, mult: real, a: Agent, dt: real,
                         pond: Pond, bushes: seq<FoodBush>, dice: Dice)
    requires p.Valid()
    requires UpdateInternalState(a, dt).alive && a.eatPause <= 0.0 && a.action == Drink
    ensures var b := UpdateInternalState(a, dt);
      var t := UpdateAgent(p, sqrt, mult, a, dt, pond, bushes, dice);
      && t.alive && t.bushes == bushes
      && t.agent.x == a.x && t.agent.y == a.y
      && (t.agent.action == Wander <==>
            TouchPond(sqrt, a.x, a.y, AGENT_RADIUS, pond, POND_EPS).None? || b.thirst <= p.thirstOk)
      && (t.agent.action == Wander ==>
            t.agent.interactCooldown == INTERACT_COOLDOWN && t.agent.drinkTimer == 0.0)
      && (t.agent.action == Drink ==>
            && t.agent.drinkTimer < p.drinkInterval
            && (0.0 <= p.drinkAmount && 0.0 <= b.thirst ==> t.agent.thirst <= b.thirst))
  {
  }

  /** A wandering agent switches to drinking exactly when it is ready,
      thirsty enough and its proposed position touches the pond; it then
      stays where it is with a reset timer. */
  lemma StartsDrinkingAtPond(p: Params, sqrt: real -> real, mult: real, a: Agent, dt: real,
                             pond: Pond, bushes: seq<FoodBush>, dice: Dice)
    requires p.Valid()
    requires UpdateInternalState(a, dt).alive && a.eatPause <= 0.0 && a.action == Wander
    ensures var c := Settle(sqrt, UpdateInternalState(a, dt), dt);
      var t := UpdateAgent(p, sqrt, mult, a, dt, pond, bushes, dice);
      && (t.agent.action == Drink <==> WillDrink(p, sqrt, c, ProposedMove(c, mult, dt), pond))
      && (t.agent.action == Drink ==>
            t.agent.x == a.x && t.agent.y == a.y && t.agent.drinkTimer == 0.0 && t.bushes == bushes)
  {
  }

  /** A bush loses food only to a living, wandering agent that is out of
      its bite pause, off cooldown and hungry enough; the agent then stays
      put, its hunger drops by the eat amount (not below 0), and the pause
      and the cooldown start. */
  lemma EatsOnlyWhenHungry(p: Params, sqrt: real -> real, mult: real, a: Agent, dt: real,
                           pond: Pond, bushes: seq<FoodBush>, dice: Dice)
    requires p.Valid()
    ensures var b := UpdateInternalState(a, dt);
      var t := UpdateAgent(p, sqrt, mult, a, dt, pond, bushes, dice);
      t.bushes != bushes ==>
      && b.alive && a.eatPause <= 0.0 && a.action == Wander
      && Settle(sqrt, b, dt).interactCooldown <= 0.0 && p.hungerSeek <= b.hunger
      && t.agent.x == a.x && t.agent.y == a.y
      && t.agent.hunger == Max(0.0, b.hunger - p.eatAmount)
      && t.agent.eatPause == p.eatPause && t.agent.interactCooldown == INTERACT_COOLDOWN
      && OneBushEaten(bushes, t.bushes)
  {
  }

  /** When neither the pond, nor a bush, nor the pond's rim stops a
      wandering agent, the tick is `MoveWithin` at the proposed position:
      clamped to the screen margins, with each velocity component whose
      axis was clamped reversed (see `MoveWithin`). */
  lemma FreeMoveStaysOnScreen(p: Params, sqrt: real -> real, mult: real, a: Agent, dt: real,
                              pond: Pond, bushes: seq<FoodBush>, dice: Dice)
    requires p.Valid()
    requires UpdateInternalState(a, dt).alive && a.eatPause <= 0.0 && a.action == Wander
    requires var c := Settle(sqrt, UpdateInternalState(a, dt), dt);
      var n := ProposedMove(c, mult, dt);
      && !WillDrink(p, sqrt, c, n, pond)
      && BushScan(MeetFor(p, sqrt, c, n, dice.pick), bushes, 0).PassedAll?
      && CollideWithPond(sqrt, n.x, n.y, AGENT_RADIUS, pond).None?
    ensures var c := Settle(sqrt, UpdateInternalState(a, dt), dt);
      var n := ProposedMove(c, mult, dt);
      var t := UpdateAgent(p, sqrt, mult, a, dt, pond, bushes, dice);
      && t.alive && t.bushes == bushes && t.agent.action == Wander
      && t.agent == MoveWithin(sqrt, c, n)
      && AGENT_RADIUS <= t.agent.x <= WIDTH - AGENT_RADIUS
      && AGENT_RADIUS <= t.agent.y <= HEIGHT - AGENT_RADIUS
      && (AGENT_RADIUS <= n.x <= WIDTH - AGENT_RADIUS && AGENT_RADIUS <= n.y <= HEIGHT - AGENT_RADIUS ==>
            t.agent.x == n.x && t.agent.y == n.y)
      && (IsSqrt(sqrt) && AGENT_RADIUS <= n.x <= WIDTH - AGENT_RADIUS && AGENT_RADIUS <= n.y <= HEIGHT - AGENT_RADIUS ==>
            Velocity(t.agent) == Velocity(c))
  {
    var b := UpdateInternalState(a, dt);
    var c := Settle(sqrt, b, dt);
    var n := ProposedMove(c, mult, dt);
    var t := UpdateAgent(p, sqrt, mult, a, dt, pond, bushes, dice);
    assert c.eatPause == a.eatPause && c.action == Wander;
    assert t == WanderTick(p, sqrt, mult, c, dt, pond, bushes, dice);
    assert t == Interact(p, sqrt, c, n, pond, bushes, dice);
    assert t.agent == MoveWithin(sqrt, c, n);
    ClampSpeedIdempotent(sqrt, Velocity(b));
  }

  /** Capping twice is capping once. */
  lemma ClampSpeedIdempotent(sqrt: real -> real, v: Vec)
    ensures IsSqrt(sqrt) ==> ClampSpeed(sqrt, ClampSpeed(sqrt, v)) == ClampSpeed(sqrt, v)
  {
  }

  /** The facts every agent keeps between ticks: the life-cycle invariant,
      non-negative needs and timers, and a drink timer below the interval. */
  ghost predicate TickInv(p: Params, a: Agent)
  {
    && Inv(a)
    && 0.0 <= a.hunger && 0.0 <= a.thirst
    && 0.0 <= a.interactCooldown && 0.0 <= a.eatPause
    && 0.0 <= a.drinkTimer < p.drinkInterval
  }

  /** A tick with a non-negative frame time keeps the invariant, given a
      non-negative bite pause. */
  lemma UpdateAgentKeepsInv(p: Params, sqrt: real -> real, mult: real, a: Agent, dt: real,
                             pond: Pond, bushes: seq<FoodBush>, dice: Dice)
    requires p.Valid() && 0.0 <= p.eatPause
    requires 0.0 <= dt
    requires TickInv(p, a)
    ensures TickInv(p, UpdateAgent(p, sqrt, mult, a, dt, pond, bushes, dice).agent)
  {
    var b := UpdateInternalState(a, dt);
    if b.alive {
      assert TickInv(p, Settle(sqrt, b, dt));
    }
  }

  /** The example circle of radius 5 centred 12 to the right of (102, 100). */
  const EXAMPLE_CIRCLE: Circle := Circle(114.0, 100.0, 5.0)

  /** At (102, 100) the agent overlaps the example circle by 1. */
  lemma ExampleHit(sqrt: real -> real)
    requires IsSqrt(sqrt)
    ensures CollideWithPond(sqrt, 102.0, 100.0, AGENT_RADIUS, Pond([EXAMPLE_CIRCLE], [])) ==
            Some(Hit(EXAMPLE_CIRCLE, 12.0, 1.0))
  {
    SqrtOfSquare(sqrt, 12.0);
    assert (102.0 - 114.0) * (102.0 - 114.0) + (100.0 - 100.0) * (100.0 - 100.0) == 12.0 * 12.0;
    assert CentreDist(sqrt, 102.0, 100.0, EXAMPLE_CIRCLE) == 12.0;
  }

  /** The reflection about the over-long normal (-7/6, 0). */
  lemma ExampleBounce()
    ensures var m := BounceOffCircle(100.0, 100.0, 2.0, 0.0, 114.0, 100.0, 5.0, 12.0, 1.0);
      m.vx == -31.0 / 9.0 && m.vy == 0.0
  {
    var n := BounceNormal(100.0, 100.0, 114.0, 100.0, 12.0);
    assert n == Vec(-7.0 / 6.0, 0.0);
  }

  /** A vector along the x axis has the length of its component. */
  lemma SpeedAlongX(sqrt: real -> real, x: real)
    requires IsSqrt(sqrt)
    ensures Speed(sqrt, Vec(x, 0.0)) == Magnitude(x)
  {
    SpeedOfLength(sqrt, Vec(x, 0.0), Magnitude(x));
  }

  function Magnitude(x: real): real
  {
    if x < 0.0 then -x else x
  }

  /** Damping the reflected velocity gives one under the cap. */
  lemma ExampleDamped(sqrt: real -> real)
    requires IsSqrt(sqrt)
    ensures var damped := Scale(Vec(-31.0 / 9.0, 0.0), BOUNCE_DAMP);
      ClampSpeed(sqrt, damped) == damped && Speed(sqrt, damped) == 713.0 / 225.0
  {
    var damped := Scale(Vec(-31.0 / 9.0, 0.0), BOUNCE_DAMP);
    assert damped == Vec(-713.0 / 225.0, 0.0);
    SpeedAlongX(sqrt, -713.0 / 225.0);
  }

  /** `_apply_bounce` reflects about a normal built from the current
      position but divided by the distance at the proposed one, so the
      normal need not be a unit vector and the bounce can speed the agent
      up despite the damping. Here an agent at (100, 100) moving at (2, 0)
      proposes (102, 100), 12 from the centre of a radius-5 pond circle:
      the overlap is 1, the normal is (-7/6, 0), and the agent leaves at
      speed 713/225 (about 3.17). */
  lemma ApplyBounceCanGainSpeed(sqrt: real -> real, a: Agent)
    requires IsSqrt(sqrt)
    requires a.x == 100.0 && a.y == 100.0 && a.vx == 2.0 && a.vy == 0.0
    ensures var hit := Hit(EXAMPLE_CIRCLE, 12.0, 1.0);
      && CollideWithPond(sqrt, 102.0, 100.0, AGENT_RADIUS, Pond([EXAMPLE_CIRCLE], [])) == Some(hit)
      && Speed(sqrt, Velocity(a)) == 2.0
      && Speed(sqrt, Velocity(ApplyBounce(sqrt, a, hit))) == 713.0 / 225.0
  {
    ExampleHit(sqrt);
    ExampleBounce();
    SpeedAlongX(sqrt, 2.0);
    ExampleDamped(sqrt);
  }
}

=== FILE: traits.dfy ===
/** Per-agent trait multipliers (traits.py): sampled once, optionally
    clamped, and applied to base configuration values by multiplication. */
module Traits {
  import opened Utils
  import opened Draws

  datatype Traits = Traits(vision: real, speed: real, metabolism: real, memory: real)

  /** The dataclass defaults: every multiplier 1.0. */
  const DEFAULT: Traits := Traits(1.0, 1.0, 1.0, 1.0)

  const MIN_MULT: real := 0.5
  const MAX_MULT: real := 2.0

  predicate Within(t: Traits, lo: real, hi: real)
  {
    && lo <= t.vision <= hi
    && lo <= t.speed <= hi
    && lo <= t.metabolism <= hi
    && lo <= t.memory <= hi
  }

  /** First-generation traits from four `random()` draws in [0, 1). */
  function RandomTraits(uVision: real, uSpeed: real, uMetabolism: real, uMemory: real): (t: Traits)
    requires 0.0 <= uVision < 1.0 && 0.0 <= uSpeed < 1.0
    requires 0.0 <= uMetabolism < 1.0 && 0.0 <= uMemory < 1.0
    ensures 0.7 <= t.vision <= 1.4
    ensures 0.7 <= t.speed <= 1.4
    ensures 0.7 <= t.metabolism <= 1.3
    ensures 0.7 <= t.memory <= 1.5
  {
    Traits(
      vision := Uniform(0.7, 1.4, uVision),
      speed := Uniform(0.7, 1.4, uSpeed),
      metabolism := Uniform(0.7, 1.3, uMetabolism),
      memory := Uniform(0.7, 1.5, uMemory))
  }

  /** `y` is `x` pulled into [MIN_MULT, MAX_MULT]: unchanged inside, the
      nearer end outside. */
  predicate ClampedFrom(x: real, y: real)
  {
    && (MIN_MULT <= x <= MAX_MULT ==> y == x)
    && (x < MIN_MULT ==> y == MIN_MULT)
    && (MAX_MULT < x ==> y == MAX_MULT)
  }

  /** `clamp_traits`: each multiplier is clamped on its own. */
  function ClampTraits(t: Traits): (r: Traits)
    ensures Within(r, MIN_MULT, MAX_MULT)
    ensures Within(t, MIN_MULT, MAX_MULT) ==> r == t
    ensures ClampedFrom(t.vision, r.vision)
    ensures ClampedFrom(t.speed, r.speed)
    ensures ClampedFrom(t.metabolism, r.metabolism)
    ensures ClampedFrom(t.memory, r.memory)
  {
    Traits(
      vision := Clamp(t.vision, MIN_MULT, MAX_MULT),
      speed := Clamp(t.speed, MIN_MULT, MAX_MULT),
      metabolism := Clamp(t.metabolism, MIN_MULT, MAX_MULT),
      memory := Clamp(t.memory, MIN_MULT, MAX_MULT))
  }

  lemma ClampTraitsIdempotent(t: Traits)
    ensures ClampTraits(ClampTraits(t)) == ClampTraits(t)
  {
  }

  /** Freshly sampled traits already lie inside the clamp bounds. */
  lemma RandomTraitsAreClamped(uVision: real, uSpeed: real, uMetabolism: real, uMemory: real)
    requires 0.0 <= uVision < 1.0 && 0.0 <= uSpeed < 1.0
    requires 0.0 <= uMetabolism < 1.0 && 0.0 <= uMemory < 1.0
    ensures var t := RandomTraits(uVision, uSpeed, uMetabolism, uMemory);
      ClampTraits(t) == t
  {
  }

  /** `effective_vision`: within the clamp bounds the vision radius lies
      between half and twice its base; the unit multiplier keeps the base. */
  function EffectiveVision(baseVision: real, t: Traits): (r: real)
    ensures t.vision == 1.0 ==> r == baseVision
    ensures 0.0 <= baseVision && MIN_MULT <= t.vision <= MAX_MULT ==>
      MIN_MULT * baseVision <= r <= MAX_MULT * baseVision
  {
    var r := baseVision * t.vision;
    MultiplierBounds(baseVision, t.vision, r);
    r
  }

  /** `effective_max_speed`, bounded the same way. */
  function EffectiveMaxSpeed(baseSpeed: real, t: Traits): (r: real)
    ensures t.speed == 1.0 ==> r == baseSpeed
    ensures 0.0 <= baseSpeed && MIN_MULT <= t.speed <= MAX_MULT ==>
      MIN_MULT * baseSpeed <= r <= MAX_MULT * baseSpeed
  {
    var r := baseSpeed * t.speed;
    MultiplierBounds(baseSpeed, t.speed, r);
    r
  }

  /** `effective_drain`: a lower metabolism multiplier drains slower. */
  function EffectiveDrain(baseRate: real, t: Traits): (r: real)
    ensures t.metabolism == 1.0 ==> r == baseRate
    ensures 0.0 <= baseRate && MIN_MULT <= t.metabolism <= MAX_MULT ==>
      MIN_MULT * baseRate <= r <= MAX_MULT * baseRate
  {
    var r := baseRate * t.metabolism;
    MultiplierBounds(baseRate, t.metabolism, r);
    r
  }

  /** `effective_memory_ttl`: a higher memory multiplier remembers longer. */
  function EffectiveMemoryTtl(baseTtl: real, t: Traits): (r: real)
    ensures t.memory == 1.0 ==> r == baseTtl
    ensures 0.0 <= baseTtl && MIN_MULT <= t.memory <= MAX_MULT ==>
      MIN_MULT * baseTtl <= r <= MAX_MULT * baseTtl
  {
    var r := baseTtl * t.memory;
    MultiplierBounds(baseTtl, t.memory, r);
    r
  }

  /** A non-negative base times a multiplier within the clamp bounds. */
  lemma MultiplierBounds(base: real, m: real, r: real)
    requires r == base * m
    ensures 0.0 <= base && MIN_MULT <= m <= MAX_MULT ==> MIN_MULT * base <= r <= MAX_MULT * base
  {
    if 0.0 <= base && MIN_MULT <= m <= MAX_MULT {
      MulNonNegative(base, m - MIN_MULT);
      MulNonNegative(base, MAX_MULT - m);
    }
  }

  /** With the default multipliers every effective value is its base. */
  lemma EffectiveWithDefaults(base: real)
    ensures EffectiveVision(base, DEFAULT) == base
    ensures EffectiveMaxSpeed(base, DEFAULT) == base
    ensures EffectiveDrain(base, DEFAULT) == base
    ensures EffectiveMemoryTtl(base, DEFAULT) == base
  {
  }

  /** A better memory keeps memories at least as long. */
  lemma EffectiveMemoryTtlMonotone(baseTtl: real, t1: Traits, t2: Traits)
    requires 0.0 <= baseTtl
    requires t1.memory <= t2.memory
    ensures EffectiveMemoryTtl(baseTtl, t1) <= EffectiveMemoryTtl(baseTtl, t2)
  {
    MulNonNegative(baseTtl, t2.memory - t1.memory);
    assert baseTtl * (t2.memory - t1.memory) == baseTtl * t2.memory - baseTtl * t1.memory;
  }

  /** A faster metabolism drains at least as fast. */
  lemma EffectiveDrainMonotone(baseRate: real, t1: Traits, t2: Traits)
    requires 0.0 <= baseRate
    requires t1.metabolism <= t2.metabolism
    ensures EffectiveDrain(baseRate, t1) <= EffectiveDrain(baseRate, t2)
  {
    MulNonNegative(baseRate, t2.metabolism - t1.metabolism);
    assert baseRate * (t2.metabolism - t1.metabolism) == baseRate * t2.metabolism - baseRate * t1.metabolism;
  }
}

=== FILE: utils.dfy ===
/** Numeric helpers of the simulation (utils.py), and the interval clamp that
    resources.py and traits.py apply. Every value is an exact real: the
    model does not follow IEEE rounding. */
module Utils {

  function Max(a: real, b: real): (r: real)
    ensures r >= a && r >= b
    ensures r == a || r == b
  {
    if a >= b then a else b
  }

  function Min(a: real, b: real): (r: real)
    ensures r <= a && r <= b
    ensures r == a || r == b
  {
    if a <= b then a else b
  }

  /** `max(lo, min(hi, v))`: the point of [lo, hi] nearest to v; when the
      interval is empty the lower bound wins. */
  function Clamp(v: real, lo: real, hi: real): (r: real)
    ensures lo <= hi ==> lo <= r <= hi
    ensures lo <= v <= hi ==> r == v
    ensures lo <= hi && v < lo ==> r == lo
    ensures lo <= hi && hi < v ==> r == hi
    ensures hi < lo ==> r == lo
  {
    Max(lo, Min(hi, v))
  }

  function Clamp01(t: real): (r: real)
    ensures 0.0 <= r <= 1.0
    ensures 0.0 <= t <= 1.0 ==> r == t
    ensures t < 0.0 ==> r == 0.0
    ensures 1.0 < t ==> r == 1.0
  {
    Clamp(t, 0.0, 1.0)
  }

  lemma Clamp01Idempotent(t: real)
    ensures Clamp01(Clamp01(t)) == Clamp01(t)
  {
  }

  /** Sign of a product with a positive factor, stated in the form the
      solver cannot derive unaided. */
  lemma MulSign(x: real, d: real)
    requires 0.0 < d
    ensures 0.0 < x ==> 0.0 < x * d
    ensures x < 0.0 ==> x * d < 0.0
  {
  }

  lemma MulNonNegative(x: real, y: real)
    ensures 0.0 <= x && 0.0 <= y ==> 0.0 <= x * y
  {
  }

  /** A product with a factor in [0, 1] lies between 0 and the other factor. */
  lemma MulBetween(d: real, t: real)
    ensures 0.0 <= t <= 1.0 && d >= 0.0 ==> 0.0 <= d * t <= d
    ensures 0.0 <= t <= 1.0 && d <= 0.0 ==> d <= d * t <= 0.0
  {
    if 0.0 <= t <= 1.0 {
      if d >= 0.0 {
        assert d * t <= d * 1.0;
      } else {
        assert d * t >= d * 1.0;
      }
    }
  }

  function Lerp(a: real, b: real, t: real): (r: real)
    ensures t == 0.0 ==> r == a
    ensures t == 1.0 ==> r == b
    ensures 0.0 <= t <= 1.0 && a <= b ==> a <= r <= b
    ensures 0.0 <= t <= 1.0 && b <= a ==> b <= r <= a
  {
    var d := b - a;
    MulBetween(d, t);
    a + d * t
  }

  /** Python's `int(x)` on a float: truncation toward zero. */
  function Trunc(x: real): (r: int)
    ensures 0.0 <= x ==> r as real <= x < r as real + 1.0
    ensures x < 0.0 ==> r as real - 1.0 < x <= r as real
  {
    if x >= 0.0 then x.Floor else -((-x).Floor)
  }

  /** An integer that bounds a real from below also bounds its truncation. */
  lemma TruncBetween(x: real, lo: int, hi: int)
    requires lo as real <= x <= hi as real
    ensures lo <= Trunc(x) <= hi
  {
    if x >= 0.0 {
      assert (lo as real).Floor == lo;
      assert (hi as real).Floor == hi;
    } else {
      assert ((-hi) as real).Floor == -hi;
      assert ((-lo) as real).Floor == -lo;
    }
  }

  function Sum(xs: seq<real>): real
  {
    if |xs| == 0 then 0.0 else xs[0] + Sum(xs[1..])
  }

  type Colour = (int, int, int)

  function LerpChannel(c1: int, c2: int, t: real): (r: int)
    requires 0.0 <= t <= 1.0
    ensures c1 <= c2 ==> c1 <= r <= c2
    ensures c2 <= c1 ==> c2 <= r <= c1
    ensures t == 0.0 ==> r == c1
    ensures t == 1.0 ==> r == c2
  {
    var x := Lerp(c1 as real, c2 as real, t);
    if c1 <= c2 then TruncBetween(x, c1, c2); Trunc(x)
    else TruncBetween(x, c2, c1); Trunc(x)
  }

  /** Channel-wise interpolation with `t` clamped to [0, 1] first. */
  function LerpColour(c1: Colour, c2: Colour, t: real): (r: Colour)
    ensures t <= 0.0 ==> r == c1
    ensures 1.0 <= t ==> r == c2
    ensures c1.0 <= c2.0 ==> c1.0 <= r.0 <= c2.0
    ensures c2.0 <= c1.0 ==> c2.0 <= r.0 <= c1.0
    ensures c1.1 <= c2.1 ==> c1.1 <= r.1 <= c2.1
    ensures c2.1 <= c1.1 ==> c2.1 <= r.1 <= c1.1
    ensures c1.2 <= c2.2 ==> c1.2 <= r.2 <= c2.2
    ensures c2.2 <= c1.2 ==> c2.2 <= r.2 <= c1.2
  {
    var u := Clamp01(t);
    (LerpChannel(c1.0, c2.0, u), LerpChannel(c1.1, c2.1, u), LerpChannel(c1.2, c2.2, u))
  }

  /** Maps a stat onto a 0..1 factor that ramps over [start, start + span].
      Python raises on a zero span, hence the precondition. */
  function Severity(value: real, start: real, span: real): (r: real)
    requires span != 0.0
    ensures 0.0 <= r <= 1.0
    ensures 0.0 < span && value <= start ==> r == 0.0
    ensures 0.0 < span && start + span <= value ==> r == 1.0
    ensures 0.0 < span && start < value < start + span ==> 0.0 < r < 1.0
  {
    var q := (value - start) / span;
    if 0.0 < span then DivSign(value - start, span); Clamp01(q) else Clamp01(q)
  }

  lemma DivSign(n: real, d: real)
    requires 0.0 < d
    ensures n <= 0.0 ==> n / d <= 0.0
    ensures 0.0 < n < d ==> 0.0 < n / d < 1.0
    ensures d <= n ==> 1.0 <= n / d
  {
    var q := n / d;
    assert q * d == n;
    MulSign(q, d);
    MulSign(q - 1.0, d);
    assert (q - 1.0) * d == n - d;
  }

  lemma {:induction false} SeverityMonotone(v1: real, v2: real, start: real, span: real)
    requires 0.0 < span
    requires v1 <= v2
    ensures Severity(v1, start, span) <= Severity(v2, start, span)
  {
    var q1 := (v1 - start) / span;
    var q2 := (v2 - start) / span;
    assert q1 <= q2 by {
      assert q1 * span == v1 - start;
      assert q2 * span == v2 - start;
      MulSign(q1 - q2, span);
      assert (q1 - q2) * span == v1 - v2;
    }
    assert Severity(v1, start, span) == Clamp01(q1);
    assert Severity(v2, start, span) == Clamp01(q2);
  }

  function Abs(v: int): nat
  {
    if v < 0 then -v else v
  }

  /** `step_toward_zero`: moves an integer `step` units toward zero without
      crossing it. Python's default `step = 1` is not a separate member:
      such a call is `StepTowardZero(v, 1)`. */
  function StepTowardZero(v: int, step: int): (r: int)
    ensures v == 0 ==> r == 0
    ensures 0 < v ==> 0 <= r
    ensures v < 0 ==> r <= 0
    ensures 0 <= step ==> Abs(r) == if Abs(v) <= step then 0 else Abs(v) - step
    ensures 0 <= step && 0 <= v ==> 0 <= r <= v
    ensures 0 <= step && v <= 0 ==> v <= r <= 0
  {
    if v > 0 then (if v - step >= 0 then v - step else 0)
    else if v < 0 then (if v + step <= 0 then v + step else 0)
    else 0
  }
}
